=== FILE: README.md ===
# dify2openai — a Dafny model of the request and response translation

dify2openai is an HTTP adapter. It accepts OpenAI-style requests
(`POST /v1/chat/completions` and the legacy `POST /v1/completions`) and forwards each one to a
Dify backend. It then translates the backend's stream of server-sent events back into
OpenAI-shaped replies. This project models that core in Dafny:

- **Authorization.** The presence check on the `Authorization` header and the token it forwards
  (`Auth`).
- **Request composition.** This covers the query text and base64 images taken from the last
  chat message. It also covers the history template of `Chat` bots and the backend payload
  (`RequestComposer`, `Config`).
- **Backend URL.** The bot-type switch that picks the backend path, and the full URL built
  from it (`DifyApiClient`).
- **Line demultiplexer.** Each chunk is appended to a buffer, the buffer is split on `\n`, and
  every complete line goes through the streaming or the blocking filter (`LineDemux`).
- **Streaming translator.** A class whose `OnData` method is the `data` listener. It writes
  content, stop, `[DONE]` and error frames to a response, modelled as the log of calls made on
  it (`Streaming`). The translator is shared by both endpoints, with their two payload shapes
  (`Translator.Endpoint`).
- **Blocking translator.** A class that folds events into an answer, a usage record and flags.
  Its `OnEnd` method builds the single JSON reply or the 500 error (`Blocking`).
- **Id generator.** It draws 29 characters from a 62-character alphabet (`IdGenerator`).

The model relies on these JavaScript semantics, each written out explicitly (`JsValue`, `Text`):

- Values: `undefined`, `null`, booleans, integers, strings and objects.
- Truthiness and `||`.
- Property access, which throws a TypeError on `undefined` and `null`, and optional chaining.
- `String(v)`.
- `trim` and `trimStart` with the ECMAScript whitespace set.
- `split` and `join`.

A TypeError inside a `data` listener is not caught there. It ends the process. The translators
model it as a `crashed` flag, after which no handler changes anything, and the buffer keeps
the appended chunk because the final `buffer = lines[lines.length - 1]` is never reached.

Several behaviours of the source are easy to misread. The model follows the source in each of
them:

- **Error frame not guarded.** In streaming mode, the error frame and `res.status(500)` are
  written even after the response has ended. Only the `[DONE]` that follows them is guarded.
  `end()` is also called again. See `Streaming.ErrorFrameAfterDone`.
- **Last text part wins.** When the last message is a part list, each `text` part overwrites
  the query, so the last one wins, not the first. See `RequestComposer.LastTextPartWins`.
- **An error ends only its chunk.** In blocking mode, an `error` event leaves the loop over the
  current chunk only. Later chunks are still handled, and `hasError` stays set. See
  `Blocking.ErrorEndsChunk` and `Blocking.ErrorIsSticky`.
- **`||` replaces zero.** The usage fallbacks are written with `||`, so a reported count of `0`
  also becomes 100, 10 or 110. A `message_end` without `metadata.usage` is a TypeError, not a
  fallback. The workflow total is read from `data.total_tokens`. See
  `Blocking.MessagesThenEnd`, `Blocking.MessageEndUsage` and `Blocking.WorkflowUsage`.
- **Two line filters.** The streaming and blocking modes filter lines differently. Streaming
  requires `data:` and a leading `{`. Blocking strips an optional `data: ` and requires both
  `{` and `}`. See `LineDemux.FiltersDisagreeWithoutSpace` and
  `LineDemux.FiltersDisagreeOnBareJson`.

## Model

| member | source | states |
|---|---|---|
| Text.TrimStart | src/routes/v1/completions.js:159 | `trimStart()` removes exactly the leading whitespace: the result is a suffix, everything dropped is whitespace and the result does not start with whitespace |
| Text.Trim | src/routes/v1/completions.js:128 | `trim()` yields a slice with only whitespace outside it and no whitespace at either end |
| Text.TrimPadded | src/routes/v1/completions.js:128 | trimming removes any whitespace padding around a string whose ends are not whitespace |
| Text.TrimUnchanged | src/routes/v1/completions.js:128 | a string whose ends are not whitespace is its own trim |
| Text.Split | src/routes/v1/completions.js:125 | `split` on one character always yields at least one piece |
| Text.SplitPiecesFree | src/routes/v1/completions.js:125 | no piece of a split contains the separator |
| Text.SecondPiece | src/routes/v1/completions.js:24 | the second field of a split, when there is one, holds no separator |
| Text.JoinSplit | src/routes/v1/completions.js:125 | joining the pieces of a split with the separator gives back the original string |
| Text.SplitJoin | src/routes/v1/completions.js:72-75 | splitting a join of separator-free pieces gives back the pieces |
| Text.SplitFree | src/routes/v1/completions.js:24 | a string without the separator splits into itself alone |
| Text.SplitPrefixed | src/routes/v1/completions.js:125 | a separator-free head followed by the separator contributes exactly one leading piece |
| Text.FirstPieceEmpty | src/routes/v1/completions.js:24 | a string starting with the separator has an empty first piece |
| Text.SplitAtFirst | src/routes/v1/completions.js:24 | the first separator splits the string into its first piece and the split of the rest |
| Text.Join | src/routes/v1/completions.js:75 | `join` puts the separator between consecutive pieces; its properties are stated by `Text.JoinSplit` and `Text.SplitJoin` |
| JsValue.Or | src/routes/v1/completions.js:278-281 | `a \|\| b` is truthy exactly when either operand is, and it is `a` whenever `a` is truthy |
| JsValue.Prop | src/routes/v1/completions.js:149 | property access fails (TypeError) exactly on `undefined` and `null`; on an object it reads the key or `undefined` |
| JsValue.OptionalProp | src/routes/v1/completions.js:293-294 | `v?.key` is `undefined` on a nullish `v` and otherwise agrees with property access |
| JsValue.NatToDecimal | src/routes/v1/completions.js:291 | a number is printed as non-empty decimal digits with no leading zero |
| JsValue.DecimalRoundTrip | src/routes/v1/completions.js:291 | reading the printed digits back gives the number |
| JsValue.ToStr | src/routes/v1/completions.js:273-291 | `String(v)` leaves strings unchanged |
| LineDemux.CompleteLines | src/routes/v1/completions.js:124-127 | the lines handled per chunk are every piece but the last, and none holds a `\n` |
| LineDemux.Remainder | src/routes/v1/completions.js:236 | the buffer kept for the next chunk holds no `\n` |
| LineDemux.FedLines | src/routes/v1/completions.js:123-237 | no line handed on over a sequence of chunks holds a `\n`; `LineDemux.FeedIsChunkingInvariant` equates them with the whole body's lines |
| LineDemux.FedRemainder | src/routes/v1/completions.js:236 | the buffer left after at least one chunk, or after none from a `\n`-free buffer, holds no `\n` |
| LineDemux.Conservation | src/routes/v1/completions.js:124-236 | the complete lines, each with its `\n`, followed by the new buffer, spell out the old buffer plus the chunk |
| LineDemux.SplitAppend | src/routes/v1/completions.js:124-125 | splitting `x + y` is splitting `x` and then splitting its last piece followed by `y` |
| LineDemux.ChunkBoundary | src/routes/v1/completions.js:123-237 | delivering two chunks one after the other yields the same lines and buffer as delivering their concatenation |
| LineDemux.FeedIsChunkingInvariant | src/routes/v1/completions.js:123-237 | however the body is cut into chunks, the lines handed on and the final buffer are those of the whole body |
| LineDemux.StreamingJsonText | src/routes/v1/completions.js:128-138 | the streaming filter hands on text only from a line that, trimmed, starts with `data:`, and that text starts with `{` |
| LineDemux.StripDataPrefix | src/routes/v1/completions.js:258 | `replace(/^data: /, "")` removes one leading `data: ` and nothing else |
| LineDemux.BlockingJsonText | src/routes/v1/completions.js:254-263 | the blocking filter hands on only text starting with `{` and ending with `}` |
| LineDemux.TrimEventLine | src/routes/v1/completions.js:128 | a canonical event line with trailing whitespace trims to `data: ` and its JSON |
| LineDemux.StreamingAcceptsEventLine | src/routes/v1/completions.js:128-135 | the streaming filter hands on the JSON of a canonical event line |
| LineDemux.BlockingAcceptsEventLine | src/routes/v1/completions.js:254-260 | the blocking filter hands on the same JSON of a canonical event line |
| LineDemux.FiltersDisagreeWithoutSpace | src/routes/v1/completions.js:130 | `data:` directly followed by any `{...}` text passes the streaming filter, which hands on that text, but not the blocking one |
| LineDemux.FiltersDisagreeOnBareJson | src/routes/v1/completions.js:254-260 | any bare `{...}` line passes the blocking filter unchanged but not the streaming one |
| IdGenerator.CharIndex | src/utils/idGenerator.js:12 | `Math.floor(Math.random() * 62)` is always a valid alphabet index |
| IdGenerator.IdFromSamples | src/utils/idGenerator.js:7-15 | the identifier a run of draws produces has 29 characters, all from the alphabet |
| IdGenerator.GenerateId | src/utils/idGenerator.js:7-15 | the loop yields 29 characters, all from the alphabet, one per draw in order |
| IdGenerator.Position | src/utils/idGenerator.js:9-10 | every alphabet character has a position in the alphabet |
| IdGenerator.EveryIdIsReachable | src/utils/idGenerator.js:7-15 | every 29-character string over the alphabet is produced by some run of draws |
| DifyApiClient.BotType | src/services/difyApiClient.js:7 | an unset or empty `BOT_TYPE` selects `Chat`; any other value is kept |
| DifyApiClient.ApiPath | src/services/difyApiClient.js:17-28 | a path exists exactly for `Chat`, `Completion` and `Workflow`, and it starts with `/` |
| DifyApiClient.ApiPathRoundTrip | src/services/difyApiClient.js:17-28 | the path determines the bot type it was chosen for |
| DifyApiClient.ApiPathCaseSensitive | src/services/difyApiClient.js:18-26 | lower-case bot type names are rejected |
| DifyApiClient.FullApiUrl | src/services/difyApiClient.js:6-30 | a missing or empty base URL is the `DIFY API URL is required` error; otherwise the URL is the base followed by the bot type's path, or the invalid bot type error |
| DifyApiClient.DefaultsToChat | src/services/difyApiClient.js:7-20 | with no bot type configured, requests go to `/chat-messages` |
| Config.FromEnv | src/routes/v1/completions.js:10-12 | an unset or empty `BOT_TYPE` gives `Chat` and any other value is kept; an unset input or output variable gives the empty string and a set one is kept |
| Auth.Authorize | src/routes/v1/completions.js:16-31 | a missing or empty header is rejected with 401 `Unauthorized.`; an accepted token is non-empty and holds no space |
| Auth.NoSpaceNoToken | src/routes/v1/completions.js:24-25 | a header without a space is rejected |
| Auth.AuthorizeCharacterized | src/routes/v1/completions.js:24-30 | a header is accepted exactly when a non-space follows its first space, and the token is the next space-free run |
| Auth.FirstPieceIsPrefix | src/routes/v1/completions.js:24 | the first split piece is a prefix of the string |
| Auth.RejectsSchemeOnly | src/routes/v1/textCompletions.js:24-30 | `Bearer` alone is rejected |
| Auth.RejectsDoubleSpace | src/routes/v1/textCompletions.js:24-30 | `Bearer` followed by two spaces is rejected, whatever follows |
| Auth.AcceptsBearerToken | src/routes/v1/textCompletions.js:24-30 | `Bearer <token>` yields the token, for every non-empty token without a space |
| RequestComposer.ExtractFromParts | src/routes/v1/completions.js:41-61 | the loop over the parts yields the last text part's text and the images of all base64 `data:image` parts, in order |
| RequestComposer.LastText | src/routes/v1/completions.js:44-45 | the query of a part list is empty or the text of one of its text parts |
| RequestComposer.PartImage | src/routes/v1/completions.js:46-56 | a part yields at most one image, and only a `data:image` part with a non-empty field after its first comma, as a base64 image of that field |
| RequestComposer.PartImages | src/routes/v1/completions.js:41-61 | the images of a part list, in order; `RequestComposer.PartImagesSound`, `RequestComposer.PartImagesComplete` and `RequestComposer.PartImagesAppend` state what they are |
| RequestComposer.DataImagePart | src/routes/v1/completions.js:46-56 | a `data:image` part with a non-empty field after its first comma yields exactly that base64 image |
| RequestComposer.PartImagesLast | src/routes/v1/completions.js:41-61 | the images of a part list are those before its last part followed by the last part's |
| RequestComposer.PartImagesAround | src/routes/v1/completions.js:41-61 | the images of a part list are those before part `j`, part `j`'s, then those after it |
| RequestComposer.LastTextPartWins | src/routes/v1/completions.js:44-45 | the query is the text of the last text part |
| RequestComposer.NoTextPartNoText | src/routes/v1/completions.js:38-45 | with no text part the query stays empty |
| RequestComposer.PartImagesAppend | src/routes/v1/completions.js:43-57 | the image list of concatenated parts is the concatenation of their image lists |
| RequestComposer.PartImagesSound | src/routes/v1/completions.js:46-56 | every image comes from a `data:image` part, as the non-empty field after its first comma |
| RequestComposer.PartImagesComplete | src/routes/v1/completions.js:46-56 | every `data:image` part with a non-empty field after its first comma contributes its image |
| RequestComposer.HistoryLines | src/routes/v1/completions.js:72-74 | the history has one line per message except the last |
| RequestComposer.ContentString | src/routes/v1/completions.js:74 | `${message.content}`: a string is kept, a part list prints `[object Object]` per part, comma-separated, any other value prints as `String(v)` |
| RequestComposer.HistoryLine | src/routes/v1/completions.js:74 | a history line is the role, `: ` and the content as printed |
| RequestComposer.HistoryQuery | src/routes/v1/completions.js:69-76 | the `Chat` template; `RequestComposer.HistoryQueryReadBack` states how it reads back |
| RequestComposer.ChatQuery | src/routes/v1/completions.js:37-79 | the query of a chat request: a part list's last text, the `Chat` template for plain text, the text itself for other bot types; `RequestComposer.PartListDropsHistory` states the part-list case |
| RequestComposer.HistoryQueryReadBack | src/routes/v1/completions.js:69-76 | the `Chat` template starts with the history header and ends with the question; between them lie exactly the history lines |
| RequestComposer.BuildPayload | src/routes/v1/completions.js:82-108 | the payload has an empty conversation id, user `apiuser` and no name generation; its mode follows the truthiness of `stream`; `files` is present exactly when there are images |
| RequestComposer.StreamFlag | src/routes/v1/completions.js:82 | the `stream` default is never `undefined` and keeps the truthiness of the request's `stream` |
| RequestComposer.PayloadRoundTrip | src/routes/v1/completions.js:85-108 | the payload carries the query under the input variable or as `query`, and it carries the images |
| RequestComposer.ChatPayload | src/routes/v1/completions.js:82-108 | a chat payload carries the chat query and the last message's images, in the mode the truthiness of `stream` selects |
| RequestComposer.PlanChat | src/routes/v1/completions.js:16-112 | the chat handler rejects exactly the requests that fail authorization; an empty message list sends nothing; otherwise it calls the backend with the token and the composed payload |
| RequestComposer.PlanCompletion | src/routes/v1/textCompletions.js:16-64 | the legacy handler rejects exactly the requests that fail authorization; otherwise it forwards `prompt` as the query, with no files |
| RequestComposer.PartListDropsHistory | src/routes/v1/completions.js:69-79 | for a `Chat` bot, a part-list last message yields its text part alone, without history |
| Translator.Delta | src/routes/v1/completions.js:144-154 | a content event's delta fails only for a `text_chunk` without `data`; a `text_chunk` with `data` yields `data.text`; otherwise, with an output variable set and an object `answer`, it is `answer[outputVariable]`, and with no output variable or a non-object answer it is the answer itself |
| Streaming.StreamingTranslator.constructor | src/routes/v1/completions.js:115-121 | the translator starts with an empty buffer, `isFirstChunk` set, not ended, and an empty response log |
| Streaming.StreamingTranslator.HandleEvent | src/routes/v1/completions.js:144-233 | the event branch changes the state exactly as the event function specifies |
| Streaming.StreamingTranslator.HandleContent | src/routes/v1/completions.js:144-188 | a content event picks its delta, trims the first truthy one, and writes it unless the response has ended, as the event function specifies |
| Streaming.StreamingTranslator.WriteDelta | src/routes/v1/completions.js:157-188 | once the delta is known, the first truthy one is trimmed (a TypeError unless a string), and a truthy delta is written unless the response has ended, as the delta function specifies |
| Streaming.StreamingTranslator.HandleFinish | src/routes/v1/completions.js:189-216 | a finishing event appends the stop frame and `[DONE]` unless ended, then `end()`, and marks the response ended |
| Streaming.StreamingTranslator.HandleError | src/routes/v1/completions.js:219-232 | an error event appends status 500 and the error frame, `[DONE]` unless ended, then `end()`, and marks the response ended |
| Streaming.StreamingTranslator.HandleLines | src/routes/v1/completions.js:127-234 | the loop handles the chunk's complete lines in order, as the fold over lines specifies, and stops at a TypeError |
| Streaming.StreamingTranslator.HandleLine | src/routes/v1/completions.js:128-143 | one line is filtered, parsed and handled as the line function specifies |
| Streaming.StreamingTranslator.OnData | src/routes/v1/completions.js:123-237 | a chunk handles every complete line of buffer plus chunk in order and keeps the remainder; a TypeError leaves buffer plus chunk |
| Streaming.OnEvent | src/routes/v1/completions.js:144-233 | an event only appends to the response, never reopens it or sets `isFirstChunk` again, calls `end()` last when it ends the response, and does nothing after a TypeError |
| Streaming.OnDelta | src/routes/v1/completions.js:157-188 | the content branch of an event once its delta is known; `Streaming.FirstDeltaTrimmed` and `Streaming.LaterDeltasUntrimmed` state what it writes |
| Streaming.OnLine | src/routes/v1/completions.js:128-143 | a line only appends to the response and never reopens it; a line the filter rejects changes nothing |
| Streaming.OnLines | src/routes/v1/completions.js:127-234 | the fold over a chunk's lines that `HandleLines` is proved against; `Streaming.OnLinesAppendOnly` and `Streaming.OnLinesKeepsInv` state its properties |
| Streaming.OnChunks | src/routes/v1/completions.js:123-237 | the fold over the `data` events; `Streaming.OnChunksIsChunkingInvariant`, `Streaming.OnChunksAppendOnly` and `Streaming.StreamTerminatesOnce` state its properties |
| Streaming.OnLinesAppendOnly | src/routes/v1/completions.js:127-234 | a run of lines only appends to the response, and never reopens it or sets `isFirstChunk` again |
| Streaming.OnChunksAppendOnly | src/routes/v1/completions.js:123-237 | so does a sequence of `data` events |
| Streaming.CrashedAbsorbs | src/routes/v1/completions.js:123-237 | after a TypeError, later lines change nothing |
| Streaming.OnLinesAppend | src/routes/v1/completions.js:127-234 | handling `a + b` is handling `a` and then `b` |
| Streaming.OnChunksIsChunkingInvariant | src/routes/v1/textCompletions.js:75-185 | however the body is cut into chunks, the response is the one the whole body's lines produce |
| Streaming.ContentEventKeepsInv | src/routes/v1/completions.js:164-188 | a content event appends at most one content frame, and only before `end()` |
| Streaming.FinishEventKeepsInv | src/routes/v1/completions.js:189-216 | a finishing event appends stop, `[DONE]` and `end()`, or only `end()` once ended |
| Streaming.FinishOpsWellTerminated | src/routes/v1/completions.js:192-216 | the calls of a finishing event are well-terminated, end with `end()`, and hold no guarded frame once ended |
| Streaming.ErrorOpsWellTerminated | src/routes/v1/completions.js:221-232 | the calls of an error event are well-terminated, end with `end()`, and hold no guarded frame once ended |
| Streaming.ErrorEventKeepsInv | src/routes/v1/completions.js:219-232 | an error event keeps the terminal-frame discipline |
| Streaming.OnEventKeepsInv | src/routes/v1/completions.js:144-233 | every event keeps the terminal-frame discipline and ties `isResponseEnded` to `end()` |
| Streaming.OnLinesKeepsInv | src/routes/v1/completions.js:127-234 | every run of lines keeps that invariant |
| Streaming.TerminalFramesAtMostOnce | src/routes/v1/completions.js:192-216 | a well-terminated log holds at most one `[DONE]` and at most one stop frame |
| Streaming.StreamTerminatesOnce | src/routes/v1/textCompletions.js:139-182 | whatever the backend sends, the stream has at most one stop frame and one `[DONE]`, and nothing guarded follows `end()` |
| Streaming.LaterDeltasUntrimmed | src/routes/v1/completions.js:157-162 | after the first truthy delta, deltas are written unchanged |
| Streaming.FirstDeltaTrimmed | src/routes/v1/completions.js:157-188 | the first non-empty string delta is written with its leading whitespace trimmed, and it clears `isFirstChunk` even when trimming leaves nothing to write |
| Streaming.BlankFirstDeltaClearsFlag | src/routes/v1/completions.js:157-164 | a whitespace-only first delta clears `isFirstChunk` and writes nothing, so the next delta keeps its leading space |
| Streaming.HelloThenEnd | src/routes/v1/completions.js:164-216 | `Hello` then `message_end` gives one content frame, one stop frame, `[DONE]` and `end()` |
| Streaming.ErrorFrameAfterDone | src/routes/v1/textCompletions.js:169-181 | an `error` after `message_end` still writes status 500 and an error frame after `[DONE]` |
| Blocking.MessageEndUsage | src/routes/v1/completions.js:275-282 | `message_end` fails exactly without `metadata` or `usage`; otherwise each count is the reported `metadata.usage` count when truthy and exactly 100, 10 or 110 when falsy (so a reported `0` becomes the fallback) |
| Blocking.WorkflowResult | src/routes/v1/completions.js:283-291 | `workflow_finished` fails exactly without `data`, or without `outputs` when an output variable is set; with an output variable the answer is `String(outputs[outputVariable])`, with none it is `String(outputs)` |
| Blocking.WorkflowUsage | src/routes/v1/completions.js:292-296 | workflow usage always has three truthy counts: the prompt and completion counts are the optional `metadata.usage` counts when truthy, else 100 and 10; the total is `data.total_tokens` when truthy, else 110 |
| Blocking.BlockEvent | src/routes/v1/completions.js:269-303 | an event never clears `hasError`, the skip guard or `messageEnded`; a message event appends its `answer` as `String(answer)` and sets the skip guard; `message_end` sets `messageEnded` and the `message_end` usage, or is a TypeError; a `workflow_finished` with the skip guard unset sets `messageEnded`, the workflow answer and the workflow usage, or is a TypeError; `error` only sets `hasError`; counts stay truthy |
| Blocking.BlockLine | src/routes/v1/completions.js:254-303 | one line sets `hasError` exactly when it is an `error` event line |
| Blocking.LineEvent | src/routes/v1/completions.js:254-263 | the event a line carries: the blocking filter's text, parsed |
| Blocking.BlockLines | src/routes/v1/completions.js:253-304 | the fold over a chunk's lines that `HandleLines` is proved against; `Blocking.FlagsAreSticky`, `Blocking.ErrorLineSetsError` and `Blocking.ResultAccumulates` state its properties |
| Blocking.BlockChunks | src/routes/v1/completions.js:249-307 | the fold over the `data` events; `Blocking.ErrorIsSticky` states that `hasError` survives it |
| Blocking.ResultAccumulates | src/routes/v1/completions.js:269-274 | over lines that are message events or dropped, the answer is the old answer followed by every message's answer in order, `hasError` is unchanged and there is no TypeError |
| Blocking.MessageLineStep | src/routes/v1/completions.js:254-274 | a message line or a dropped line appends its answer (if any) and neither stops the chunk nor crashes |
| Blocking.EndIsNotMessage | src/routes/v1/completions.js:269-291 | `message_end` and `workflow_finished` events are never message events, and never each other, so the branch order decides nothing for them |
| Blocking.MessageIsNotError | src/routes/v1/completions.js:269-303 | a message event is never an `error` event |
| Blocking.EndIsNotError | src/routes/v1/completions.js:275-303 | a `message_end` event is never an `error` event |
| Blocking.LineDoesNotStop | src/routes/v1/completions.js:254-303 | a dropped line, a message line or a `message_end` line does not stop its chunk |
| Blocking.MessagesDoNotStop | src/routes/v1/completions.js:254-303 | no message line or dropped line stops its chunk |
| Blocking.NoStopSnoc | src/routes/v1/completions.js:253-304 | a run without an `error` line, followed by a line that is not one, is still without one |
| Blocking.BlockLinesSingle | src/routes/v1/completions.js:253-304 | a run of one line is that line's step |
| Blocking.BlockLinesAppend | src/routes/v1/completions.js:253-304 | without an `error` line in `a`, handling `a + b` is handling `a` and then `b` |
| Blocking.NoStopChunks | src/routes/v1/completions.js:249-307 | without an `error` line, a sequence of `data` events is one run over all the lines they hand on |
| Blocking.BlockingChunkInvariant | src/routes/v1/completions.js:249-307 | for a body without an `error` line, however it is cut into `data` events, the state is that of the whole body's complete lines |
| Blocking.AnswersThenEnd | src/routes/v1/completions.js:269-336 | message lines followed by a `message_end` event that reports usage reply with every answer concatenated in order and trimmed |
| Blocking.AnswersReply | src/routes/v1/completions.js:249-336 | a body whose complete lines are message or dropped lines closed by a `message_end` line that reports usage replies, however it is cut into `data` events, with every answer concatenated in order and trimmed |
| Blocking.Finish | src/routes/v1/completions.js:309-340 | the reply is the 500 error exactly when `hasError`, a completion exactly when ended without error, and the 500 unexpected end otherwise |
| Blocking.BlockingTranslator.constructor | src/routes/v1/completions.js:240-245 | the translator starts with an empty answer, no usage and all flags clear |
| Blocking.BlockingTranslator.HandleEvent | src/routes/v1/completions.js:269-303 | the event branch changes the state as the event function specifies and breaks exactly on `error` |
| Blocking.BlockingTranslator.HandleMessageEnd | src/routes/v1/completions.js:275-282 | `message_end` sets `messageEnded`; it is a TypeError exactly when `metadata.usage` is missing, and otherwise sets the usage with its fallbacks |
| Blocking.BlockingTranslator.HandleWorkflowFinished | src/routes/v1/completions.js:283-296 | `workflow_finished` sets `messageEnded`; it is a TypeError exactly when the workflow answer cannot be read, and otherwise sets the answer from the outputs and the workflow usage |
| Blocking.BlockingTranslator.HandleLine | src/routes/v1/completions.js:254-267 | one line is filtered, parsed and handled; it breaks exactly on an `error` event line |
| Blocking.BlockingTranslator.HandleLines | src/routes/v1/completions.js:253-304 | the loop handles lines up to and including the first `error` line or TypeError |
| Blocking.BlockingTranslator.OnData | src/routes/v1/completions.js:249-307 | a chunk is handled as its complete lines and keeps the remainder; a TypeError leaves buffer plus chunk |
| Blocking.BlockingTranslator.OnEnd | src/routes/v1/completions.js:309-340 | at the end the reply is the three-way decision over the state, with a generated id and the time in seconds; nothing after a TypeError |
| Blocking.CrashedAbsorbs | src/routes/v1/completions.js:249-307 | after a TypeError, later lines change nothing |
| Blocking.ErrorEndsChunk | src/routes/v1/completions.js:299-303 | an `error` line only sets `hasError`, and the rest of its chunk is dropped |
| Blocking.WorkflowIgnoredAfterMessage | src/routes/v1/completions.js:283 | `workflow_finished` after a message event changes nothing |
| Blocking.FlagsAreSticky | src/routes/v1/textCompletions.js:196-250 | `hasError`, the skip guard and `messageEnded` are never cleared, and a TypeError is final |
| Blocking.ErrorLineSetsError | src/routes/v1/textCompletions.js:245-249 | a chunk with an `error` line ends with `hasError` set, unless a TypeError ended the process |
| Blocking.ErrorIsSticky | src/routes/v1/textCompletions.js:196-250 | `hasError` survives every later chunk |
| Blocking.BlockEventKeepsCounts | src/routes/v1/completions.js:275-296 | every event keeps the reported token counts truthy |
| Blocking.BlockLinesKeepCounts | src/routes/v1/completions.js:253-304 | every run of lines keeps the reported token counts truthy |
| Blocking.CompletionShape | src/routes/v1/textCompletions.js:259-276 | a completion has the endpoint's id prefix and 29 generated characters, its object name, the trimmed answer, `stop`, truthy counts and a fingerprint only for chat |
| Blocking.MessagesThenEnd | src/routes/v1/completions.js:269-336 | two messages with answers `a` and `b`, then a `message_end` reporting zero prompt tokens, reply with the trimmed `a + b` and usage 100/7/110 |
| Blocking.ErrorAfterAnswer | src/routes/v1/textCompletions.js:254-258 | an `error` after a complete answer still replies with the 500 error |
| Blocking.AnswerWithoutEnd | src/routes/v1/completions.js:337-339 | an answer without `message_end` replies with the unexpected-end error |
| Blocking.WorkflowOutput | src/routes/v1/textCompletions.js:231-244 | a workflow's output variable becomes the answer, with usage 100/10/110 |

## Left out

- HTTP I/O is not modelled. This covers Express routing, headers, `res.json` and
  `res.send` serialization, and `Content-Type`. Responses are modelled as values or as a log
  of calls.
- `makeDifyRequest` (the `fetch` call) is not modelled. A handler's plan ends at the backend
  call, and the backend body arrives as the chunks given to `OnData`.
- `JSON.parse` is a parameter of the translators (`parse`), where `None` is a parse failure.
  JSON encoding and decoding are not modelled.
- `Date.now()` and `Math.random()` are parameters: the current time in milliseconds and the 29
  draws. The streaming chunk ids (`chatcmpl-${Date.now()}`) are not modelled.
- Numbers are integers, and arrays occur only as message part lists. Floating-point token
  counts and array-valued answers or outputs are not modelled.
- JsValue.NatToDecimal: prints every integer as plain decimal digits. JavaScript's `String(n)`
  switches to exponent notation from 1e21 on, and that form is not modelled.
- Built-in properties of primitives (for example `"abc".length` through `outputs[key]`) are
  not modelled. Every property of a primitive reads as `undefined`.
- Message parts are taken as well-typed. A part whose `image_url` is missing throws a TypeError
  in the source; here it contributes no image. A missing or non-array `messages` is not
  modelled. An empty list is, and it leads to the caught TypeError (no reply).
- Chunks are strings. UTF-8 decoding across chunk boundaries (`chunk.toString()`) is not
  modelled.
- Streaming mode registers no `end` listener, so the model has no end handler there.
  Node's behaviour when writing after `end()` is not modelled. Those writes are kept in the log
  as the source issues them.
- Logging (`console.error`) is not modelled.
- The process-level throw when `DIFY_API_URL` is missing or the bot type is invalid is modelled
  as an error result, not as a process exit.
- `src/app.js`, `src/routes/v1/index.js` and `src/routes/v1/models.js` are not part of this
  model.
- Concurrency between requests is not modelled. Each request owns its translator object.
- Blocking chunk invariance is stated only for bodies without an `error` line
  (`Blocking.BlockingChunkInvariant`). An `error` line drops the rest of its own chunk only, so
  with one the final state can depend on how the body was cut into chunks.

=== FILE: auth.dfy ===
/**
 * The presence check both POST handlers make on the `Authorization` header before anything
 * else: the header must be set and non-empty, and its second space-separated field (the token)
 * must be present and non-empty. The token is not validated.
 */
module Auth {
  import opened Wrappers
  import opened Text

  /** The response of a rejected request: `res.status(401).json({code: 401, errmsg})`. */
  datatype Rejection = Rejection(status: int, code: int, errmsg: string)

  const Unauthorized: Rejection := Rejection(401, 401, "Unauthorized.")

  /**
   * The handler's check: the bearer token that is forwarded to the backend, or the 401
   * rejection returned before any backend call.
   */
  function Authorize(header: Option<string>): (r: Result<string, Rejection>)
    ensures r.Err? ==> r.error == Unauthorized
    ensures header.None? || header == Some("") ==> r.Err?
    ensures r.Ok? ==> r.value != "" && ' ' !in r.value
  {
    if header.None? || header.value == "" then Err(Unauthorized)
    else
      match SecondPiece(header.value, ' ')
      case Some(token) => if token != "" then Ok(token) else Err(Unauthorized)
      case None => Err(Unauthorized)
  }

  /** A header without a space has no token. */
  lemma NoSpaceNoToken(header: string)
    requires ' ' !in header
    ensures Authorize(Some(header)).Err?
  {
    SplitFree(header, ' ');
  }

  /**
   * A header is accepted exactly when a non-space character directly follows its first space;
   * the token is then the run of non-space characters starting there.
   */
  lemma {:induction false} AuthorizeCharacterized(header: string, i: nat)
    requires i < |header| && header[i] == ' '
    requires forall k :: 0 <= k < i ==> header[k] != ' '
    ensures Authorize(Some(header)).Ok? <==> i + 1 < |header| && header[i + 1] != ' '
    ensures Authorize(Some(header)).Ok? ==> Authorize(Some(header)).value == Split(header[i + 1..], ' ')[0]
    ensures Authorize(Some(header)).Ok? ==> StartsWith(header[i + 1..], Authorize(Some(header)).value)
  {
    SplitAtFirst(header, ' ', i);
    var tail := header[i + 1..];
    FirstPieceEmpty(tail, ' ');
    JoinSplit(tail, ' ');
    FirstPieceIsPrefix(tail, ' ');
  }

  /** The first piece of a split is a prefix of the string. */
  lemma {:induction false} FirstPieceIsPrefix(s: string, sep: char)
    ensures StartsWith(s, Split(s, sep)[0])
  {
    if |s| > 0 && s[0] != sep {
      FirstPieceIsPrefix(s[1..], sep);
    }
  }

  /** `"Bearer"` alone has no second field. */
  lemma RejectsSchemeOnly()
    ensures Authorize(Some("Bearer")).Err?
  {
    NoSpaceNoToken("Bearer");
  }

  /** A doubled space after the scheme leaves the second field empty, whatever follows. */
  lemma RejectsDoubleSpace(rest: string)
    ensures Authorize(Some("Bearer  " + rest)).Err?
  {
    var h := "Bearer  " + rest;
    BearerPrefix(h, " " + rest);
    assert (" " + rest)[0] == ' ';
    assert Split(" " + rest, ' ')[0] == "" by { FirstPieceEmpty(" " + rest, ' '); }
  }

  /** `Bearer <token>` yields the token, for every non-empty token without a space. */
  lemma AcceptsBearerToken(token: string)
    requires token != "" && ' ' !in token
    ensures Authorize(Some("Bearer " + token)) == Ok(token)
  {
    BearerPrefix("Bearer " + token, token);
    SplitFree(token, ' ');
  }

  /** A header `Bearer ` + `tail` splits into `Bearer` and the pieces of `tail`. */
  lemma BearerPrefix(h: string, tail: string)
    requires h == "Bearer " + tail
    ensures Split(h, ' ') == ["Bearer"] + Split(tail, ' ')
  {
    assert h == "Bearer" + [' '] + tail;
    assert ' ' !in "Bearer";
    SplitPrefixed("Bearer", ' ', tail);
  }
}

=== FILE: blocking.dfy ===
/**
 * The blocking response translator (`stream` not `true`): the backend's events are folded
 * into an answer text, a usage record and two flags, and when the backend body ends one JSON
 * reply is built. An `error` event stops the handling of the rest of its own chunk only.
 */
module Blocking {
  import opened Wrappers
  import opened Text
  import opened JsValue
  import opened LineDemux
  import opened Translator
  import IdGenerator

  /** `usageData`: the empty string it starts as, or the three token counts. */
  datatype UsageData =
    | NoUsage
    | Usage(promptTokens: Value, completionTokens: Value, totalTokens: Value)

  /** No reported token count is falsy: `|| 100`, `|| 10` and `|| 110` replace `0` as well. */
  predicate CountsTruthy(u: UsageData) {
    u.Usage? ==> Truthy(u.promptTokens) && Truthy(u.completionTokens) && Truthy(u.totalTokens)
  }

  /** `reported || fallback`: a truthy reported count is kept, any falsy one becomes the fallback. */
  predicate FallsBack(count: Value, reported: Value, fallback: int) {
    count == (if Truthy(reported) then reported else Num(fallback))
  }

  /**
   * The handler's variables between events, and whether a TypeError has escaped the `data`
   * listener (after which nothing more happens).
   */
  datatype BlockState = BlockState(
    result: string,
    usage: UsageData,
    messageEnded: bool,
    hasError: bool,
    skipWorkflowFinished: bool,
    crashed: bool)

  const Initial: BlockState := BlockState("", NoUsage, false, false, false, false)

  /** The usage of a `message_end` event; `None` is the TypeError of a missing `metadata` or `usage`. */
  function MessageEndUsage(obj: Json): (r: Option<UsageData>)
    ensures r.None? <==> Nullish(Field(obj, "metadata")) || Nullish(OptionalProp(Field(obj, "metadata"), "usage"))
    ensures r.Some? ==> r.value.Usage? && CountsTruthy(r.value)
    ensures r.Some? ==> var u := OptionalProp(Field(obj, "metadata"), "usage");
                        && FallsBack(r.value.promptTokens, OptionalProp(u, "prompt_tokens"), 100)
                        && FallsBack(r.value.completionTokens, OptionalProp(u, "completion_tokens"), 10)
                        && FallsBack(r.value.totalTokens, OptionalProp(u, "total_tokens"), 110)
  {
    match Prop(Field(obj, "metadata"), "usage")
    case None => None
    case Some(u) =>
      if Nullish(u) then None
      else Some(Usage(Or(Prop(u, "prompt_tokens").value, Num(100)),
                      Or(Prop(u, "completion_tokens").value, Num(10)),
                      Or(Prop(u, "total_tokens").value, Num(110))))
  }

  /**
   * The answer a `workflow_finished` event carries: `String(data.outputs[outputVariable])`, or
   * `String(data.outputs)` with no output variable. `None` is the TypeError of a missing `data`,
   * or of missing `outputs` when an output variable is set.
   */
  function WorkflowResult(outputVariable: string, obj: Json): (r: Option<string>)
    ensures r.None? <==> (Nullish(Field(obj, "data"))
                          || (outputVariable != "" && Nullish(OptionalProp(Field(obj, "data"), "outputs"))))
    ensures outputVariable == "" && r.Some? ==> r.value == ToStr(OptionalProp(Field(obj, "data"), "outputs"))
    ensures outputVariable != "" && r.Some?
            ==> r.value == ToStr(OptionalProp(OptionalProp(Field(obj, "data"), "outputs"), outputVariable))
  {
    match Prop(Field(obj, "data"), "outputs")
    case None => None
    case Some(outputs) =>
      if outputVariable != "" then
        match Prop(outputs, outputVariable)
        case None => None
        case Some(v) => Some(ToStr(v))
      else Some(ToStr(outputs))
  }

  /** The usage of a `workflow_finished` event, read with optional chaining except `data.total_tokens`. */
  function WorkflowUsage(obj: Json): (r: UsageData)
    requires !Nullish(Field(obj, "data"))
    ensures r.Usage? && CountsTruthy(r)
    ensures var u := OptionalProp(Field(obj, "metadata"), "usage");
            && FallsBack(r.promptTokens, OptionalProp(u, "prompt_tokens"), 100)
            && FallsBack(r.completionTokens, OptionalProp(u, "completion_tokens"), 10)
            && FallsBack(r.totalTokens, OptionalProp(Field(obj, "data"), "total_tokens"), 110)
  {
    var usage := OptionalProp(Field(obj, "metadata"), "usage");
    Usage(Or(OptionalProp(usage, "prompt_tokens"), Num(100)),
          Or(OptionalProp(usage, "completion_tokens"), Num(10)),
          Or(Prop(Field(obj, "data"), "total_tokens").value, Num(110)))
  }

  /** `message` or `agent_message`: the events whose answer is appended to the reply text. */
  predicate IsMessage(obj: Json) {
    EventIs(obj, "message") || EventIs(obj, "agent_message")
  }

  /** The effect of one parsed event (completions.js lines 269-303). */
  function BlockEvent(outputVariable: string, st: BlockState, obj: Json): (r: BlockState)
    ensures st.crashed ==> r == st
    ensures !st.crashed && IsMessage(obj)
            ==> r == st.(result := st.result + ToStr(Field(obj, "answer")), skipWorkflowFinished := true)
    ensures r.hasError <==> st.hasError || (!st.crashed && EventIs(obj, "error"))
    ensures r.crashed && !st.crashed ==> !EventIs(obj, "error")
    ensures !st.crashed && EventIs(obj, "error") ==> r == st.(hasError := true)
    ensures st.skipWorkflowFinished ==> r.skipWorkflowFinished
    ensures st.messageEnded ==> r.messageEnded
    ensures CountsTruthy(st.usage) ==> CountsTruthy(r.usage)
    ensures !st.crashed && EventIs(obj, "message_end")
            ==> r == (match MessageEndUsage(obj)
                      case None => st.(messageEnded := true, crashed := true)
                      case Some(u) => st.(messageEnded := true, usage := u))
    ensures !st.crashed && EventIs(obj, "workflow_finished") && !st.skipWorkflowFinished
            ==> r == (match WorkflowResult(outputVariable, obj)
                      case None => st.(messageEnded := true, crashed := true)
                      case Some(text) => st.(messageEnded := true, result := text, usage := WorkflowUsage(obj)))
  {
    EndIsNotMessage(obj);
    if st.crashed then st
    else if IsMessage(obj) then
      st.(result := st.result + ToStr(Field(obj, "answer")), skipWorkflowFinished := true)
    else if EventIs(obj, "message_end") then
      match MessageEndUsage(obj)
      case None => st.(messageEnded := true, crashed := true)
      case Some(u) => st.(messageEnded := true, usage := u)
    else if EventIs(obj, "workflow_finished") && !st.skipWorkflowFinished then
      match WorkflowResult(outputVariable, obj)
      case None => st.(messageEnded := true, crashed := true)
      case Some(text) => st.(messageEnded := true, result := text, usage := WorkflowUsage(obj))
    else if EventIs(obj, "error") then st.(hasError := true)
    else st
  }

  /** The event a complete line carries, if it passes the blocking filter and parses. */
  function LineEvent(parse: string -> Option<Json>, line: string): Option<Json> {
    match BlockingJsonText(line)
    case None => None
    case Some(text) => parse(text)
  }

  /** An `error` event line: the handler leaves the loop over its chunk after it. */
  predicate StopsChunk(parse: string -> Option<Json>, line: string) {
    var ev := LineEvent(parse, line);
    ev.Some? && EventIs(ev.value, "error")
  }

  function BlockLine(outputVariable: string, parse: string -> Option<Json>, st: BlockState, line: string): (r: BlockState)
    ensures st.crashed ==> r == st
    ensures r.hasError <==> st.hasError || (!st.crashed && StopsChunk(parse, line))
    ensures r.crashed && !st.crashed ==> !StopsChunk(parse, line)
    ensures st.skipWorkflowFinished ==> r.skipWorkflowFinished
    ensures st.messageEnded ==> r.messageEnded
    ensures CountsTruthy(st.usage) ==> CountsTruthy(r.usage)
  {
    match LineEvent(parse, line)
    case None => st
    case Some(obj) => BlockEvent(outputVariable, st, obj)
  }

  /** The effect of one chunk's complete lines, up to and including the first `error` event line. */
  function BlockLines(outputVariable: string, parse: string -> Option<Json>, st: BlockState, lines: seq<string>): BlockState
    decreases |lines|
  {
    if lines == [] then st
    else
      var next := BlockLine(outputVariable, parse, st, lines[0]);
      if next.crashed || StopsChunk(parse, lines[0]) then next
      else BlockLines(outputVariable, parse, next, lines[1..])
  }

  /** The effect of a sequence of `data` events, each split against the buffer left by the last. */
  function BlockChunks(outputVariable: string, parse: string -> Option<Json>, st: BlockState, buffer: string, chunks: seq<string>): BlockState
    decreases |chunks|
  {
    if chunks == [] then st
    else
      var all := buffer + chunks[0];
      BlockChunks(outputVariable, parse, BlockLines(outputVariable, parse, st, CompleteLines(all)), Remainder(all), chunks[1..])
  }

  /** The answers the message event lines of a run carry, concatenated in order. */
  function Answers(parse: string -> Option<Json>, lines: seq<string>): string
    decreases |lines|
  {
    if lines == [] then ""
    else
      var ev := LineEvent(parse, lines[0]);
      var answer := if ev.Some? && IsMessage(ev.value) then ToStr(Field(ev.value, "answer")) else "";
      answer + Answers(parse, lines[1..])
  }

  /** The single choice of the reply: `message` for chat, `text` for legacy completions. */
  datatype ReplyChoice = AssistantMessage(content: string) | TextChoice(text: string)

  /**
   * The reply sent when the backend body ends: a status-500 `{error}` object, or a status-200
   * completion with `finish_reason: "stop"` (the chat shape also carries a system fingerprint).
   */
  datatype Reply =
    | ErrorReply(status: int, error: string)
    | Completion(id: string, objectName: string, created: int, model: Value, choice: ReplyChoice,
                 finishReason: string, usage: UsageData, fingerprint: Option<string>)

  const ErrorMessage: string := "An error occurred while processing the request."
  const EndMessage: string := "Unexpected end of stream."
  const Fingerprint: string := "fp_2f57f81c11"

  /** The `end` listener's three-way decision, given the generated id and the time in seconds. */
  function Finish(endpoint: Endpoint, model: Value, st: BlockState, id: string, created: int): (r: Reply)
    ensures r == ErrorReply(500, ErrorMessage) <==> st.hasError
    ensures r == ErrorReply(500, EndMessage) <==> !st.hasError && !st.messageEnded
    ensures r.Completion? <==> !st.hasError && st.messageEnded
  {
    if st.hasError then ErrorReply(500, ErrorMessage)
    else if st.messageEnded then
      if endpoint == ChatEndpoint then
        Completion("chatcmpl-" + id, "chat.completion", created, model, AssistantMessage(Trim(st.result)),
                   "stop", st.usage, Some(Fingerprint))
      else
        Completion("cmpl-" + id, "text_completion", created, model, TextChoice(Trim(st.result)),
                   "stop", st.usage, None)
    else ErrorReply(500, EndMessage)
  }

  // ---------------------------------------------------------------- the handler as a class

  class BlockingTranslator {
    const endpoint: Endpoint
    const outputVariable: string
    const model: Value
    const parse: string -> Option<Json>
    var buffer: string
    var result: string
    var usageData: UsageData
    var hasError: bool
    var messageEnded: bool
    var skipWorkflowFinished: bool
    var crashed: bool
    var reply: Option<Reply>

    function State(): BlockState
      reads this
    {
      BlockState(result, usageData, messageEnded, hasError, skipWorkflowFinished, crashed)
    }

    constructor (endpoint: Endpoint, outputVariable: string, model: Value, parse: string -> Option<Json>)
      ensures this.endpoint == endpoint && this.outputVariable == outputVariable
      ensures this.model == model && this.parse == parse
      ensures buffer == "" && State() == Initial && reply == None
    {
      this.endpoint := endpoint;
      this.outputVariable := outputVariable;
      this.model := model;
      this.parse := parse;
      buffer := "";
      result := "";
      usageData := NoUsage;
      hasError := false;
      messageEnded := false;
      skipWorkflowFinished := false;
      crashed := false;
      reply := None;
    }

    /** The branch on `chunkObj.event`; `brk` is the `break` of the `error` branch. */
    method HandleEvent(obj: Json) returns (brk: bool)
      requires !crashed
      modifies this
      ensures State() == BlockEvent(outputVariable, old(State()), obj)
      ensures brk <==> EventIs(obj, "error")
      ensures buffer == old(buffer) && reply == old(reply)
    {
      brk := false;
      if EventIs(obj, "message") || EventIs(obj, "agent_message") {
        result := result + ToStr(Field(obj, "answer"));
        skipWorkflowFinished := true;
      } else if EventIs(obj, "message_end") {
        HandleMessageEnd(obj);
      } else if EventIs(obj, "workflow_finished") && !skipWorkflowFinished {
        HandleWorkflowFinished(obj);
      } else if EventIs(obj, "agent_thought") {
      } else if EventIs(obj, "ping") {
      } else if EventIs(obj, "error") {
        hasError := true;
        brk := true;
      }
    }

    /** `message_end`: the reply may be built; the usage counts default when falsy. */
    method HandleMessageEnd(obj: Json)
      requires !crashed && !EventIs(obj, "message") && !EventIs(obj, "agent_message") && EventIs(obj, "message_end")
      modifies this
      ensures State() == BlockEvent(outputVariable, old(State()), obj)
      ensures messageEnded && (crashed <==> MessageEndUsage(obj).None?)
      ensures !crashed ==> usageData == MessageEndUsage(obj).value
      ensures buffer == old(buffer) && reply == old(reply)
    {
      messageEnded := true;
      var usage := Prop(Field(obj, "metadata"), "usage");
      if usage.None? || Nullish(usage.value) {
        crashed := true;
        return;
      }
      var u := usage.value;
      usageData := Usage(Or(Prop(u, "prompt_tokens").value, Num(100)),
                         Or(Prop(u, "completion_tokens").value, Num(10)),
                         Or(Prop(u, "total_tokens").value, Num(110)));
    }

    /** `workflow_finished` before any message: its outputs become the answer. */
    method HandleWorkflowFinished(obj: Json)
      requires !crashed && !skipWorkflowFinished && EventIs(obj, "workflow_finished")
      requires !EventIs(obj, "message") && !EventIs(obj, "agent_message") && !EventIs(obj, "message_end")
      modifies this
      ensures State() == BlockEvent(outputVariable, old(State()), obj)
      ensures messageEnded && (crashed <==> WorkflowResult(outputVariable, obj).None?)
      ensures !crashed ==> result == WorkflowResult(outputVariable, obj).value && usageData == WorkflowUsage(obj)
      ensures buffer == old(buffer) && reply == old(reply)
    {
      messageEnded := true;
      var data := Field(obj, "data");
      if Nullish(data) {
        crashed := true;
        return;
      }
      var outputs := Prop(data, "outputs").value;
      var r: Value;
      if outputVariable != "" {
        if Nullish(outputs) {
          crashed := true;
          return;
        }
        r := Prop(outputs, outputVariable).value;
      } else {
        r := outputs;
      }
      assert WorkflowResult(outputVariable, obj) == Some(ToStr(r));
      result := ToStr(r);
      var usage := OptionalProp(Field(obj, "metadata"), "usage");
      usageData := Usage(Or(OptionalProp(usage, "prompt_tokens"), Num(100)),
                         Or(OptionalProp(usage, "completion_tokens"), Num(10)),
                         Or(Prop(data, "total_tokens").value, Num(110)));
      assert usageData == WorkflowUsage(obj);
    }

    /** One iteration of the line loop: trim, skip blanks, strip `data: `, check braces, parse, handle. */
    method HandleLine(rawLine: string) returns (brk: bool)
      requires !crashed
      modifies this
      ensures State() == BlockLine(outputVariable, parse, old(State()), rawLine)
      ensures brk <==> StopsChunk(parse, rawLine)
      ensures buffer == old(buffer) && reply == old(reply)
    {
      brk := false;
      var line := Trim(rawLine);
      if line == "" {
        return;
      }
      var cleaned := Trim(StripDataPrefix(line));
      if !(StartsWith(cleaned, "{") && EndsWith(cleaned, "}")) {
        return;
      }
      assert BlockingJsonText(rawLine) == Some(cleaned);
      var chunkObj := parse(cleaned);
      if chunkObj.None? {
        return;
      }
      brk := HandleEvent(chunkObj.value);
    }

    /** The loop over one chunk's complete lines; it is left at a TypeError or after an `error` line. */
    method HandleLines(lines: seq<string>)
      requires !crashed
      modifies this
      ensures State() == BlockLines(outputVariable, parse, old(State()), lines)
      ensures buffer == old(buffer) && reply == old(reply)
    {
      for i := 0 to |lines|
        invariant !crashed && buffer == old(buffer) && reply == old(reply)
        invariant BlockLines(outputVariable, parse, State(), lines[i..]) == BlockLines(outputVariable, parse, old(State()), lines)
      {
        ghost var before := State();
        var brk := HandleLine(lines[i]);
        BlockLinesStep(outputVariable, parse, before, State(), lines, i);
        if crashed || brk {
          return;
        }
      }
      BlockLinesDone(outputVariable, parse, State(), lines);
    }

    /** The `data` listener: append, split, handle complete lines up to an `error`, keep the fragment. */
    method OnData(chunk: string)
      modifies this
      ensures State() == BlockLines(outputVariable, parse, old(State()), CompleteLines(old(buffer) + chunk))
      ensures !crashed ==> buffer == Remainder(old(buffer) + chunk)
      ensures crashed && !old(crashed) ==> buffer == old(buffer) + chunk
      ensures reply == old(reply)
    {
      if crashed {
        CrashedAbsorbs(outputVariable, parse, State(), CompleteLines(buffer + chunk));
        return;
      }
      buffer := buffer + chunk;
      var lines := Split(buffer, '\n');
      HandleLines(lines[..|lines| - 1]);
      if crashed {
        return;
      }
      buffer := lines[|lines| - 1];
    }

    /**
     * The `end` listener, given the draws for `generateId()` and `Date.now()`; nothing happens
     * once a TypeError has ended the process.
     */
    method OnEnd(samples: seq<real>, nowMillis: nat)
      requires |samples| == IdGenerator.IdLength
      requires forall k :: 0 <= k < |samples| ==> IdGenerator.IsSample(samples[k])
      modifies this
      ensures crashed ==> reply == old(reply)
      ensures !crashed ==> reply == Some(Finish(endpoint, model, State(), IdGenerator.IdFromSamples(samples), nowMillis / 1000))
      ensures State() == old(State()) && buffer == old(buffer)
    {
      if crashed {
        return;
      }
      if hasError {
        reply := Some(ErrorReply(500, ErrorMessage));
      } else if messageEnded {
        var id := IdGenerator.GenerateId(samples);
        var created := nowMillis / 1000;
        if endpoint == ChatEndpoint {
          reply := Some(Completion("chatcmpl-" + id, "chat.completion", created, model,
                                   AssistantMessage(Trim(result)), "stop", usageData, Some(Fingerprint)));
        } else {
          reply := Some(Completion("cmpl-" + id, "text_completion", created, model,
                                   TextChoice(Trim(result)), "stop", usageData, None));
        }
      } else {
        reply := Some(ErrorReply(500, EndMessage));
      }
    }
  }

  // ---------------------------------------------------------------- properties

  /** Once a TypeError has escaped, later lines change nothing. */
  lemma {:induction false} CrashedAbsorbs(outputVariable: string, parse: string -> Option<Json>, st: BlockState, lines: seq<string>)
    requires st.crashed
    ensures BlockLines(outputVariable, parse, st, lines) == st
    decreases |lines|
  {
    if lines != [] {
      CrashedAbsorbs(outputVariable, parse, st, lines[1..]);
    }
  }

  /** One step of the line loop: stop after a crash or an `error` line, else go on with the rest. */
  lemma BlockLinesStep(outputVariable: string, parse: string -> Option<Json>, before: BlockState, after: BlockState, lines: seq<string>, i: nat)
    requires i < |lines| && after == BlockLine(outputVariable, parse, before, lines[i])
    ensures after.crashed || StopsChunk(parse, lines[i]) ==> BlockLines(outputVariable, parse, before, lines[i..]) == after
    ensures !after.crashed && !StopsChunk(parse, lines[i])
            ==> BlockLines(outputVariable, parse, before, lines[i..]) == BlockLines(outputVariable, parse, after, lines[i + 1..])
  {
    assert lines[i..][0] == lines[i] && lines[i..][1..] == lines[i + 1..];
  }

  lemma BlockLinesDone(outputVariable: string, parse: string -> Option<Json>, st: BlockState, lines: seq<string>)
    ensures BlockLines(outputVariable, parse, st, lines[|lines|..]) == st
  {
    assert lines[|lines|..] == [];
  }

  /** An `error` line ends its chunk: it only sets `hasError`, and the lines after it are dropped. */
  lemma ErrorEndsChunk(outputVariable: string, parse: string -> Option<Json>, st: BlockState, lines: seq<string>)
    requires |lines| > 0 && StopsChunk(parse, lines[0]) && !st.crashed
    ensures BlockLines(outputVariable, parse, st, lines) == st.(hasError := true)
  {
  }

  /** A `workflow_finished` event after a `message` or `agent_message` changes nothing. */
  lemma WorkflowIgnoredAfterMessage(outputVariable: string, st: BlockState, obj: Json)
    requires st.skipWorkflowFinished && EventIs(obj, "workflow_finished")
    ensures BlockEvent(outputVariable, st, obj) == st
  {
  }

  /**
   * The reply text accumulates: over a run of lines that are all message events or dropped
   * lines, `result` gains every answer, as `String(answer)`, in order.
   */
  lemma {:induction false} ResultAccumulates(outputVariable: string, parse: string -> Option<Json>, st: BlockState, lines: seq<string>)
    requires !st.crashed
    requires forall k :: 0 <= k < |lines| ==> LineEvent(parse, lines[k]).None? || IsMessage(LineEvent(parse, lines[k]).value)
    ensures BlockLines(outputVariable, parse, st, lines).result == st.result + Answers(parse, lines)
    ensures !BlockLines(outputVariable, parse, st, lines).crashed
    ensures BlockLines(outputVariable, parse, st, lines).hasError == st.hasError
    decreases |lines|
  {
    if lines == [] {
      assert st.result + "" == st.result;
    } else {
      var next := BlockLine(outputVariable, parse, st, lines[0]);
      MessageLineStep(outputVariable, parse, st, lines[0]);
      ResultAccumulates(outputVariable, parse, next, lines[1..]);
      var ev := LineEvent(parse, lines[0]);
      var answer := if ev.Some? && IsMessage(ev.value) then ToStr(Field(ev.value, "answer")) else "";
      AppendAssoc(st.result, answer, Answers(parse, lines[1..]));
    }
  }

  /** Without an `error` line in `a`, handling `a + b` in one chunk is handling `a` and then `b`. */
  lemma {:induction false} BlockLinesAppend(outputVariable: string, parse: string -> Option<Json>, st: BlockState,
                                            a: seq<string>, b: seq<string>)
    requires forall k :: 0 <= k < |a| ==> !StopsChunk(parse, a[k])
    ensures BlockLines(outputVariable, parse, st, a + b)
            == BlockLines(outputVariable, parse, BlockLines(outputVariable, parse, st, a), b)
    decreases |a|
  {
    if a == [] {
      assert a + b == b;
    } else {
      assert (a + b)[0] == a[0] && (a + b)[1..] == a[1..] + b;
      var next := BlockLine(outputVariable, parse, st, a[0]);
      assert !StopsChunk(parse, a[0]);
      if next.crashed {
        CrashedAbsorbs(outputVariable, parse, next, b);
      } else {
        BlockLinesAppend(outputVariable, parse, next, a[1..], b);
      }
    }
  }

  /**
   * Without an `error` line, a sequence of `data` events is one run over all the lines they hand
   * on: the chunk boundaries do not matter.
   */
  lemma {:induction false} NoStopChunks(outputVariable: string, parse: string -> Option<Json>, st: BlockState,
                                        buffer: string, chunks: seq<string>)
    requires forall k :: 0 <= k < |FedLines(buffer, chunks)| ==> !StopsChunk(parse, FedLines(buffer, chunks)[k])
    ensures BlockChunks(outputVariable, parse, st, buffer, chunks)
            == BlockLines(outputVariable, parse, st, FedLines(buffer, chunks))
    decreases |chunks|
  {
    if chunks != [] {
      var all := buffer + chunks[0];
      var first := CompleteLines(all);
      var rest := FedLines(Remainder(all), chunks[1..]);
      assert FedLines(buffer, chunks) == first + rest;
      forall k | 0 <= k < |first|
        ensures !StopsChunk(parse, first[k])
      {
        assert (first + rest)[k] == first[k];
      }
      forall k | 0 <= k < |rest|
        ensures !StopsChunk(parse, rest[k])
      {
        assert (first + rest)[|first| + k] == rest[k];
      }
      NoStopChunks(outputVariable, parse, BlockLines(outputVariable, parse, st, first), Remainder(all), chunks[1..]);
      BlockLinesAppend(outputVariable, parse, st, first, rest);
    }
  }

  /**
   * Chunk invariance of the blocking handler for a body without an `error` line: however it is
   * cut into `data` events, the state is that of the whole body's complete lines.
   */
  lemma BlockingChunkInvariant(outputVariable: string, parse: string -> Option<Json>, st: BlockState, chunks: seq<string>)
    requires var lines := CompleteLines(Concat(chunks));
             forall k :: 0 <= k < |lines| ==> !StopsChunk(parse, lines[k])
    ensures BlockChunks(outputVariable, parse, st, "", chunks)
            == BlockLines(outputVariable, parse, st, CompleteLines(Concat(chunks)))
  {
    FeedIsChunkingInvariant("", chunks);
    assert "" + Concat(chunks) == Concat(chunks);
    NoStopChunks(outputVariable, parse, st, "", chunks);
  }

  /**
   * The chat reply to a body whose complete lines are message lines (or dropped lines) closed by
   * a `message_end` line that reports usage, however the body is cut into `data` events, carries
   * every answer, concatenated in order and trimmed.
   */
  lemma AnswersReply(outputVariable: string, parse: string -> Option<Json>, chunks: seq<string>,
                     lines: seq<string>, endLine: string, model: Value, id: string, created: int)
    requires CompleteLines(Concat(chunks)) == lines + [endLine]
    requires forall k :: 0 <= k < |lines| ==> LineEvent(parse, lines[k]).None? || IsMessage(LineEvent(parse, lines[k]).value)
    requires LineEvent(parse, endLine).Some?
    requires EventIs(LineEvent(parse, endLine).value, "message_end") && MessageEndUsage(LineEvent(parse, endLine).value).Some?
    ensures var r := Finish(ChatEndpoint, model, BlockChunks(outputVariable, parse, Initial, "", chunks), id, created);
            r.Completion? && r.choice == AssistantMessage(Trim(Answers(parse, lines)))
  {
    var end := LineEvent(parse, endLine).value;
    MessagesDoNotStop(parse, lines);
    LineDoesNotStop(parse, endLine);
    NoStopSnoc(parse, lines, endLine);
    BlockingChunkInvariant(outputVariable, parse, Initial, chunks);
    BlockLinesAppend(outputVariable, parse, Initial, lines, [endLine]);
    AnswersThenEnd(outputVariable, parse, lines, end, model, id, created);
    BlockLinesSingle(outputVariable, parse, BlockLines(outputVariable, parse, Initial, lines), endLine);
  }

  /** No message line or dropped line stops its chunk. */
  lemma MessagesDoNotStop(parse: string -> Option<Json>, lines: seq<string>)
    requires forall k :: 0 <= k < |lines| ==> LineEvent(parse, lines[k]).None? || IsMessage(LineEvent(parse, lines[k]).value)
    ensures forall k :: 0 <= k < |lines| ==> !StopsChunk(parse, lines[k])
  {
    forall k | 0 <= k < |lines|
      ensures !StopsChunk(parse, lines[k])
    {
      var line := lines[k];
      assert LineEvent(parse, line).None? || IsMessage(LineEvent(parse, line).value);
      LineDoesNotStop(parse, line);
    }
  }

  /** A run without an `error` line, followed by a line that is not one, is still without one. */
  lemma NoStopSnoc(parse: string -> Option<Json>, lines: seq<string>, line: string)
    requires forall k :: 0 <= k < |lines| ==> !StopsChunk(parse, lines[k])
    requires !StopsChunk(parse, line)
    ensures var all := lines + [line]; forall k :: 0 <= k < |all| ==> !StopsChunk(parse, all[k])
  {
    var all := lines + [line];
    forall k | 0 <= k < |all|
      ensures !StopsChunk(parse, all[k])
    {
      if k < |lines| {
        assert all[k] == lines[k];
      } else {
        assert all[k] == line;
      }
    }
  }

  /** A dropped line, a message line or a `message_end` line does not stop its chunk. */
  lemma LineDoesNotStop(parse: string -> Option<Json>, line: string)
    requires var ev := LineEvent(parse, line);
             ev.None? || IsMessage(ev.value) || EventIs(ev.value, "message_end")
    ensures !StopsChunk(parse, line)
  {
    var ev := LineEvent(parse, line);
    if ev.Some? {
      if IsMessage(ev.value) {
        MessageIsNotError(ev.value);
      } else {
        EndIsNotError(ev.value);
      }
    }
  }

  /** A `message_end` event is not an `error` event. */
  lemma EndIsNotError(obj: Json)
    requires EventIs(obj, "message_end")
    ensures !EventIs(obj, "error")
  {
    assert "message_end" != "error" by { assert "message_end"[0] != "error"[0]; }
  }

  /** A run of one line is that line's step, whether or not it stops the chunk. */
  lemma BlockLinesSingle(outputVariable: string, parse: string -> Option<Json>, st: BlockState, line: string)
    ensures BlockLines(outputVariable, parse, st, [line]) == BlockLine(outputVariable, parse, st, line)
  {
    assert [line][0] == line && [line][1..] == [];
  }

  /** Message lines followed by a `message_end` event that reports usage: the reply is the trimmed answers. */
  lemma AnswersThenEnd(outputVariable: string, parse: string -> Option<Json>, lines: seq<string>, end: Json,
                       model: Value, id: string, created: int)
    requires forall k :: 0 <= k < |lines| ==> LineEvent(parse, lines[k]).None? || IsMessage(LineEvent(parse, lines[k]).value)
    requires EventIs(end, "message_end") && MessageEndUsage(end).Some?
    ensures var st := BlockLines(outputVariable, parse, Initial, lines);
            && !st.crashed
            && Finish(ChatEndpoint, model, BlockEvent(outputVariable, st, end), id, created).Completion?
            && Finish(ChatEndpoint, model, BlockEvent(outputVariable, st, end), id, created).choice
               == AssistantMessage(Trim(Answers(parse, lines)))
  {
    ResultAccumulates(outputVariable, parse, Initial, lines);
    assert "" + Answers(parse, lines) == Answers(parse, lines);
    assert !IsMessage(end) by {
      assert "message_end" != "message" by { assert |"message_end"| != |"message"|; }
      assert "message_end" != "agent_message" by { assert "message_end"[0] != "agent_message"[0]; }
    }
  }

  /** One message or dropped line: no crash, no stop, and its answer (if any) is appended. */
  lemma MessageLineStep(outputVariable: string, parse: string -> Option<Json>, st: BlockState, line: string)
    requires !st.crashed
    requires LineEvent(parse, line).None? || IsMessage(LineEvent(parse, line).value)
    ensures var next := BlockLine(outputVariable, parse, st, line);
            && !next.crashed && !StopsChunk(parse, line)
            && next.result == st.result + (var ev := LineEvent(parse, line);
                                           if ev.Some? && IsMessage(ev.value) then ToStr(Field(ev.value, "answer")) else "")
  {
    var ev := LineEvent(parse, line);
    if ev.Some? {
      MessageIsNotError(ev.value);
    } else {
      assert st.result + "" == st.result;
    }
  }

  /** `message_end` and `workflow_finished` events are not message events, nor each other. */
  lemma EndIsNotMessage(obj: Json)
    ensures EventIs(obj, "message_end") || EventIs(obj, "workflow_finished") ==> !IsMessage(obj)
    ensures EventIs(obj, "workflow_finished") ==> !EventIs(obj, "message_end")
  {
    assert "message_end" != "message" by { assert |"message_end"| != |"message"|; }
    assert "message_end" != "agent_message" by { assert "message_end"[0] != "agent_message"[0]; }
    assert "workflow_finished" != "message" by { assert "workflow_finished"[0] != "message"[0]; }
    assert "workflow_finished" != "agent_message" by { assert "workflow_finished"[0] != "agent_message"[0]; }
    assert "workflow_finished" != "message_end" by { assert "workflow_finished"[0] != "message_end"[0]; }
  }

  /** A message event is not an `error` event. */
  lemma MessageIsNotError(obj: Json)
    requires IsMessage(obj)
    ensures !EventIs(obj, "error")
  {
    assert "message" != "error" by { assert "message"[0] != "error"[0]; }
    assert "agent_message" != "error" by { assert "agent_message"[0] != "error"[0]; }
  }

  /** `hasError` and `skipWorkflowFinished` are never cleared, and a crash is final. */
  lemma {:induction false} FlagsAreSticky(outputVariable: string, parse: string -> Option<Json>, st: BlockState, lines: seq<string>)
    ensures var r := BlockLines(outputVariable, parse, st, lines);
            && (st.hasError ==> r.hasError)
            && (st.skipWorkflowFinished ==> r.skipWorkflowFinished)
            && (st.messageEnded ==> r.messageEnded)
            && (st.crashed ==> r == st)
    decreases |lines|
  {
    if lines != [] {
      var next := BlockLine(outputVariable, parse, st, lines[0]);
      if !(next.crashed || StopsChunk(parse, lines[0])) {
        FlagsAreSticky(outputVariable, parse, next, lines[1..]);
      }
    }
  }

  /**
   * Every `error` line the handler reaches makes the reply an error: unless a TypeError ended the
   * process, a chunk holding an `error` line leaves `hasError` set.
   */
  lemma {:induction false} ErrorLineSetsError(outputVariable: string, parse: string -> Option<Json>, st: BlockState, lines: seq<string>, k: nat)
    requires k < |lines| && StopsChunk(parse, lines[k])
    ensures var r := BlockLines(outputVariable, parse, st, lines); r.crashed || r.hasError
    decreases |lines|
  {
    var next := BlockLine(outputVariable, parse, st, lines[0]);
    if st.crashed {
      CrashedAbsorbs(outputVariable, parse, st, lines);
    } else if k > 0 && !(next.crashed || StopsChunk(parse, lines[0])) {
      assert lines[1..][k - 1] == lines[k];
      ErrorLineSetsError(outputVariable, parse, next, lines[1..], k - 1);
    }
  }

  /** `hasError` survives every later chunk. */
  lemma {:induction false} ErrorIsSticky(outputVariable: string, parse: string -> Option<Json>, st: BlockState, buffer: string, chunks: seq<string>)
    requires st.hasError
    ensures BlockChunks(outputVariable, parse, st, buffer, chunks).hasError
    decreases |chunks|
  {
    if chunks != [] {
      var all := buffer + chunks[0];
      FlagsAreSticky(outputVariable, parse, st, CompleteLines(all));
      ErrorIsSticky(outputVariable, parse, BlockLines(outputVariable, parse, st, CompleteLines(all)), Remainder(all), chunks[1..]);
    }
  }

  /** Every event keeps the reported token counts truthy. */
  lemma BlockEventKeepsCounts(outputVariable: string, st: BlockState, obj: Json)
    requires CountsTruthy(st.usage)
    ensures CountsTruthy(BlockEvent(outputVariable, st, obj).usage)
  {
  }

  /** Every run of lines keeps the reported token counts truthy. */
  lemma {:induction false} BlockLinesKeepCounts(outputVariable: string, parse: string -> Option<Json>, st: BlockState, lines: seq<string>)
    requires CountsTruthy(st.usage)
    ensures CountsTruthy(BlockLines(outputVariable, parse, st, lines).usage)
    decreases |lines|
  {
    if lines != [] {
      var next := BlockLine(outputVariable, parse, st, lines[0]);
      match LineEvent(parse, lines[0]) {
        case None =>
        case Some(obj) => BlockEventKeepsCounts(outputVariable, st, obj);
      }
      if !(next.crashed || StopsChunk(parse, lines[0])) {
        BlockLinesKeepCounts(outputVariable, parse, next, lines[1..]);
      }
    }
  }

  /**
   * A completion reply's shape: its id is the endpoint's prefix and 29 generated characters,
   * its content is the trimmed answer, and none of its token counts is falsy.
   */
  lemma CompletionShape(endpoint: Endpoint, model: Value, st: BlockState, samples: seq<real>, created: int)
    requires |samples| == IdGenerator.IdLength
    requires forall k :: 0 <= k < |samples| ==> IdGenerator.IsSample(samples[k])
    requires CountsTruthy(st.usage) && !st.hasError && st.messageEnded
    ensures var r := Finish(endpoint, model, st, IdGenerator.IdFromSamples(samples), created);
            && r.Completion? && r.finishReason == "stop" && r.model == model && r.created == created
            && CountsTruthy(r.usage)
            && (endpoint == ChatEndpoint ==>
                  && |r.id| == 9 + 29 && StartsWith(r.id, "chatcmpl-") && r.objectName == "chat.completion"
                  && r.choice == AssistantMessage(Trim(st.result)) && r.fingerprint == Some(Fingerprint))
            && (endpoint == TextEndpoint ==>
                  && |r.id| == 5 + 29 && StartsWith(r.id, "cmpl-") && r.objectName == "text_completion"
                  && r.choice == TextChoice(Trim(st.result)) && r.fingerprint.None?)
  {
  }

  // ---------------------------------------------------------------- scenarios

  /**
   * Two `message` events and a `message_end` reporting zero prompt tokens: the chat reply holds
   * the two answers concatenated and trimmed, and the zero is replaced by the default 100.
   */
  lemma MessagesThenEnd(id: string, a: string, b: string)
    ensures var first := map["event" := Str("message"), "answer" := Str(a)];
            var second := map["event" := Str("message"), "answer" := Str(b)];
            var usage := Obj(map["prompt_tokens" := Num(0), "completion_tokens" := Num(7)]);
            var end := map["event" := Str("message_end"), "metadata" := Obj(map["usage" := usage])];
            var st := BlockEvent("", BlockEvent("", BlockEvent("", Initial, first), second), end);
            Finish(ChatEndpoint, Str("dify"), st, id, 1700000000)
              == Completion("chatcmpl-" + id, "chat.completion", 1700000000, Str("dify"),
                            AssistantMessage(Trim(a + b)), "stop", Usage(Num(100), Num(7), Num(110)),
                            Some(Fingerprint))
  {
    var first := map["event" := Str("message"), "answer" := Str(a)];
    var second := map["event" := Str("message"), "answer" := Str(b)];
    var st2 := BlockEvent("", BlockEvent("", Initial, first), second);
    TwoAnswers(a, b);
    ZeroPromptTokens(st2);
  }

  /** Two `message` events append their answers in order and turn `workflow_finished` off. */
  lemma TwoAnswers(a: string, b: string)
    ensures var first := map["event" := Str("message"), "answer" := Str(a)];
            var second := map["event" := Str("message"), "answer" := Str(b)];
            BlockEvent("", BlockEvent("", Initial, first), second)
              == Initial.(result := a + b, skipWorkflowFinished := true)
  {
    var first := map["event" := Str("message"), "answer" := Str(a)];
    var second := map["event" := Str("message"), "answer" := Str(b)];
    assert Field(first, "event") == Str("message") && Field(first, "answer") == Str(a);
    assert Field(second, "event") == Str("message") && Field(second, "answer") == Str(b);
    assert "" + a == a;
  }

  lemma ZeroPromptTokens(st: BlockState)
    requires !st.crashed
    ensures var usage := Obj(map["prompt_tokens" := Num(0), "completion_tokens" := Num(7)]);
            var end := map["event" := Str("message_end"), "metadata" := Obj(map["usage" := usage])];
            BlockEvent("", st, end) == st.(messageEnded := true, usage := Usage(Num(100), Num(7), Num(110)))
  {
    var usage := Obj(map["prompt_tokens" := Num(0), "completion_tokens" := Num(7)]);
    var end := map["event" := Str("message_end"), "metadata" := Obj(map["usage" := usage])];
    assert Field(end, "event") == Str("message_end") && Field(end, "metadata") == Obj(map["usage" := usage]);
    assert !EventIs(end, "message") && !EventIs(end, "agent_message");
    assert MessageEndUsage(end) == Some(Usage(Num(100), Num(7), Num(110)));
  }

  /** An `error` event after a complete answer still turns the reply into the 500 error. */
  lemma ErrorAfterAnswer(id: string)
    ensures var hello := map["event" := Str("message"), "answer" := Str("Hello")];
            var end := map["event" := Str("message_end"), "metadata" := Obj(map["usage" := Obj(map[])])];
            var err := map["event" := Str("error"), "message" := Str("boom")];
            var st := BlockEvent("", BlockEvent("", BlockEvent("", Initial, hello), end), err);
            Finish(TextEndpoint, Null, st, id, 0) == ErrorReply(500, ErrorMessage)
  {
    var hello := map["event" := Str("message"), "answer" := Str("Hello")];
    OneAnswer("Hello");
    var st1 := BlockEvent("", Initial, hello);
    EmptyUsageEnd(st1);
    var err := map["event" := Str("error"), "message" := Str("boom")];
    assert EventIs(err, "error") by {
      assert Field(err, "event") == Str("error");
    }
  }

  /** One `message` event appends its answer and turns `workflow_finished` off. */
  lemma OneAnswer(a: string)
    ensures var m := map["event" := Str("message"), "answer" := Str(a)];
            BlockEvent("", Initial, m) == Initial.(result := a, skipWorkflowFinished := true)
  {
    var m := map["event" := Str("message"), "answer" := Str(a)];
    assert Field(m, "event") == Str("message") && Field(m, "answer") == Str(a);
    assert "" + a == a;
  }

  /** A `message_end` whose usage is an empty object ends the answer with the three default counts. */
  lemma EmptyUsageEnd(st: BlockState)
    requires !st.crashed
    ensures var end := map["event" := Str("message_end"), "metadata" := Obj(map["usage" := Obj(map[])])];
            BlockEvent("", st, end) == st.(messageEnded := true, usage := Usage(Num(100), Num(10), Num(110)))
  {
    var metadata := Obj(map["usage" := Obj(map[])]);
    var end := map["event" := Str("message_end"), "metadata" := metadata];
    assert Field(end, "event") == Str("message_end") && Field(end, "metadata") == metadata;
    assert !EventIs(end, "message") && !EventIs(end, "agent_message");
    assert Prop(metadata, "usage") == Some(Obj(map[]));
    assert MessageEndUsage(end) == Some(Usage(Num(100), Num(10), Num(110)));
  }

  /** A body that ends without `message_end` or `workflow_finished` is an unexpected end. */
  lemma AnswerWithoutEnd(id: string)
    ensures var hello := map["event" := Str("message"), "answer" := Str("Hello")];
            Finish(ChatEndpoint, Null, BlockEvent("", Initial, hello), id, 0) == ErrorReply(500, EndMessage)
  {
    OneAnswer("Hello");
  }

  /** A workflow's output variable becomes the answer, with the usage fallbacks. */
  lemma WorkflowOutput(id: string)
    ensures var outputs := Obj(map["answer" := Str("42")]);
            var done := map["event" := Str("workflow_finished"), "data" := Obj(map["outputs" := outputs])];
            var st := BlockEvent("answer", Initial, done);
            Finish(TextEndpoint, Null, st, id, 5)
              == Completion("cmpl-" + id, "text_completion", 5, Null, TextChoice("42"), "stop",
                            Usage(Num(100), Num(10), Num(110)), None)
  {
    WorkflowAnswer();
    assert "42"[0] == '4' && "42"[1] == '2';
    TrimUnchanged("42");
  }

  /** `workflow_finished` with `outputs.answer` set and no metadata, under output variable `answer`. */
  lemma WorkflowAnswer()
    ensures var outputs := Obj(map["answer" := Str("42")]);
            var done := map["event" := Str("workflow_finished"), "data" := Obj(map["outputs" := outputs])];
            BlockEvent("answer", Initial, done)
              == Initial.(messageEnded := true, result := "42", usage := Usage(Num(100), Num(10), Num(110)))
  {
    var outputs := Obj(map["answer" := Str("42")]);
    var data := Obj(map["outputs" := outputs]);
    var done := map["event" := Str("workflow_finished"), "data" := data];
    assert Field(done, "event") == Str("workflow_finished") && Field(done, "data") == data;
    assert Field(done, "metadata") == Undefined;
    assert !EventIs(done, "message") && !EventIs(done, "agent_message") && !EventIs(done, "message_end");
    assert WorkflowResult("answer", done) == Some("42");
    assert WorkflowUsage(done) == Usage(Num(100), Num(10), Num(110));
  }
}

=== FILE: config.dfy ===
/** The environment settings the route handlers read once at load time. */
module Config {
  import opened Wrappers
  import DifyApiClient

  /** `BOT_TYPE` (default `Chat`), `INPUT_VARIABLE` and `OUTPUT_VARIABLE` (default empty). */
  datatype Settings = Settings(botType: string, inputVariable: string, outputVariable: string)

  /** `process.env.X || default` for the three variables. */
  function FromEnv(botType: Option<string>, inputVariable: Option<string>, outputVariable: Option<string>): (r: Settings)
    ensures botType.None? || botType.value == "" ==> r.botType == "Chat"
    ensures botType.Some? && botType.value != "" ==> r.botType == botType.value
    ensures inputVariable.None? ==> r.inputVariable == ""
    ensures outputVariable.None? ==> r.outputVariable == ""
    ensures inputVariable.Some? ==> r.inputVariable == inputVariable.value
    ensures outputVariable.Some? ==> r.outputVariable == outputVariable.value
  {
    Settings(DifyApiClient.BotType(botType),
             if inputVariable.Some? then inputVariable.value else "",
             if outputVariable.Some? then outputVariable.value else "")
  }
}

=== FILE: dify_api_client.dfy ===
/**
 * The backend client's configuration logic: the request path chosen by the configured bot type
 * and the full URL it is appended to, both computed once when the module is loaded.
 */
module DifyApiClient {
  import opened Wrappers

  /** `process.env.BOT_TYPE || 'Chat'`: an unset or empty variable selects `Chat`. */
  function BotType(env: Option<string>): (t: string)
    ensures env.Some? && env.value != "" ==> t == env.value
    ensures t != ""
  {
    if env.None? || env.value == "" then "Chat" else env.value
  }

  /** `getDifyApiPath()`: `None` stands for the "Invalid bot type" error it throws. */
  function ApiPath(botType: string): (path: Option<string>)
    ensures path.Some? <==> botType in {"Chat", "Completion", "Workflow"}
    ensures path.Some? ==> |path.value| > 0 && path.value[0] == '/'
  {
    match botType
    case "Chat" => Some("/chat-messages")
    case "Completion" => Some("/completion-messages")
    case "Workflow" => Some("/workflows/run")
    case _ => None
  }

  /** The bot type a backend path serves: the inverse of `ApiPath`. */
  function BotTypeOfPath(path: string): Option<string> {
    match path
    case "/chat-messages" => Some("Chat")
    case "/completion-messages" => Some("Completion")
    case "/workflows/run" => Some("Workflow")
    case _ => None
  }

  /** The path identifies the bot type: distinct accepted bot types get distinct paths. */
  lemma ApiPathRoundTrip(botType: string)
    requires ApiPath(botType).Some?
    ensures BotTypeOfPath(ApiPath(botType).value) == Some(botType)
  {
  }

  /** Matching is case-sensitive: lower-case spellings are rejected. */
  lemma ApiPathCaseSensitive()
    ensures ApiPath("chat").None? && ApiPath("completion").None? && ApiPath("workflow").None?
  {
  }

  /**
   * `fullApiUrl` at module load: the base URL (which must be set and non-empty) followed by the
   * bot type's path, or the error message the module throws.
   */
  function FullApiUrl(apiUrl: Option<string>, botTypeEnv: Option<string>): (r: Result<string, string>)
    ensures (apiUrl.None? || apiUrl.value == "") ==> r == Err("DIFY API URL is required in .env")
    ensures r.Ok? <==> apiUrl.Some? && apiUrl.value != "" && ApiPath(BotType(botTypeEnv)).Some?
    ensures r.Ok? ==> r.value == apiUrl.value + ApiPath(BotType(botTypeEnv)).value
  {
    if apiUrl.None? || apiUrl.value == "" then Err("DIFY API URL is required in .env")
    else
      match ApiPath(BotType(botTypeEnv))
      case None => Err("Invalid bot type in the environment variable.")
      case Some(path) => Ok(apiUrl.value + path)
  }

  /** With no bot type configured, requests go to the chat endpoint. */
  lemma DefaultsToChat(apiUrl: string)
    requires apiUrl != ""
    ensures FullApiUrl(Some(apiUrl), None) == Ok(apiUrl + "/chat-messages")
    ensures FullApiUrl(Some(apiUrl), Some("")) == Ok(apiUrl + "/chat-messages")
  {
  }
}

=== FILE: id_generator.dfy ===
/**
 * The identifier generator: 29 characters drawn from a 62-character alphabet. The source draws
 * each character with `Math.random()`; here the draws are a parameter, one real in [0, 1) per
 * character.
 */
module IdGenerator {

  const Alphabet: string := "ABCDEFGHIJKLMNOPQRSTUVWXYZabcdefghijklmnopqrstuvwxyz0123456789"

  const IdLength: nat := 29

  /** A value `Math.random()` can return. */
  predicate IsSample(r: real) {
    0.0 <= r < 1.0
  }

  /** `Math.floor(sample * characters.length)`: always a valid index into the alphabet. */
  function CharIndex(sample: real): (i: int)
    requires IsSample(sample)
    ensures 0 <= i < |Alphabet|
  {
    assert |Alphabet| == 62;
    (sample * 62.0).Floor
  }

  /** The identifier a given run of draws produces. */
  function IdFromSamples(samples: seq<real>): (id: string)
    requires |samples| == IdLength
    requires forall k :: 0 <= k < |samples| ==> IsSample(samples[k])
    ensures |id| == IdLength
    ensures forall k :: 0 <= k < |id| ==> id[k] in Alphabet
  {
    seq(IdLength, k requires 0 <= k < IdLength => Alphabet[CharIndex(samples[k])])
  }

  /** `generateId()`: one alphabet character per draw, appended in order. */
  method GenerateId(samples: seq<real>) returns (id: string)
    requires |samples| == IdLength
    requires forall k :: 0 <= k < |samples| ==> IsSample(samples[k])
    ensures |id| == 29
    ensures forall k :: 0 <= k < |id| ==> id[k] in Alphabet
    ensures id == IdFromSamples(samples)
  {
    id := "";
    for i := 0 to IdLength
      invariant |id| == i
      invariant forall k :: 0 <= k < i ==> id[k] == Alphabet[CharIndex(samples[k])]
    {
      id := id + [Alphabet[CharIndex(samples[i])]];
    }
  }

  /** Where a character of the alphabet stands in it. */
  ghost function Position(c: char): (i: nat)
    requires c in Alphabet
    ensures i < |Alphabet| && Alphabet[i] == c
  {
    var i :| 0 <= i < |Alphabet| && Alphabet[i] == c; i
  }

  /** Every 29-character string over the alphabet is produced by some run of draws. */
  lemma EveryIdIsReachable(id: string)
    requires |id| == IdLength
    requires forall k :: 0 <= k < |id| ==> id[k] in Alphabet
    ensures exists samples: seq<real> ::
              && |samples| == IdLength
              && (forall k :: 0 <= k < |samples| ==> IsSample(samples[k]))
              && IdFromSamples(samples) == id
  {
    assert |Alphabet| == 62;
    var samples := seq(IdLength, k requires 0 <= k < IdLength => Position(id[k]) as real / 62.0);
    forall k | 0 <= k < IdLength
      ensures IsSample(samples[k]) && CharIndex(samples[k]) == Position(id[k])
    {
      var p := Position(id[k]);
      assert samples[k] * 62.0 == p as real;
    }
    assert IdFromSamples(samples) == id;
  }
}

=== FILE: js_value.dfy ===
/**
 * JavaScript values as they appear in request bodies and in the backend's parsed events,
 * with the few JavaScript semantics the handlers rely on: truthiness, `||`, property access
 * (which throws on `undefined` and `null`), optional chaining and `String(v)`.
 */
module JsValue {
  import opened Wrappers

  /** A JavaScript value; numbers are integers and arrays do not occur. */
  datatype Value =
    | Undefined
    | Null
    | Bool(b: bool)
    | Num(n: int)
    | Str(s: string)
    | Obj(fields: map<string, Value>)

  /** A parsed JSON object, such as one backend event. */
  type Json = map<string, Value>

  /** JavaScript truthiness: `undefined`, `null`, `false`, `0` and `""` are falsy. */
  predicate Truthy(v: Value) {
    match v
    case Undefined => false
    case Null => false
    case Bool(b) => b
    case Num(n) => n != 0
    case Str(s) => s != ""
    case Obj(_) => true
  }

  /** `undefined` or `null`: the values whose property access throws a TypeError. */
  predicate Nullish(v: Value) {
    v.Undefined? || v.Null?
  }

  /** `a || b`. */
  function Or(a: Value, b: Value): (r: Value)
    ensures Truthy(r) <==> Truthy(a) || Truthy(b)
    ensures r == a || r == b
    ensures Truthy(a) ==> r == a
    ensures !Truthy(a) ==> r == b
  {
    if Truthy(a) then a else b
  }

  /** `obj.key` on a parsed object: a missing key reads as `undefined`. */
  function Field(obj: Json, key: string): Value {
    if key in obj then obj[key] else Undefined
  }

  /** `obj.event === name`. */
  predicate EventIs(obj: Json, name: string) {
    Field(obj, "event") == Str(name)
  }

  /**
   * `v.key`: `None` stands for the TypeError thrown when `v` is `undefined` or `null`; a
   * primitive has no own properties here.
   */
  function Prop(v: Value, key: string): (r: Option<Value>)
    ensures r.None? <==> Nullish(v)
    ensures v.Obj? ==> r == Some(if key in v.fields then v.fields[key] else Undefined)
  {
    match v
    case Undefined => None
    case Null => None
    case Obj(m) => Some(if key in m then m[key] else Undefined)
    case _ => Some(Undefined)
  }

  /** `v?.key`: `undefined` instead of a TypeError. */
  function OptionalProp(v: Value, key: string): (r: Value)
    ensures Nullish(v) ==> r == Undefined
    ensures !Nullish(v) ==> Some(r) == Prop(v, key)
  {
    if Nullish(v) then Undefined else Prop(v, key).value
  }

  /**
   * The decimal digits of a natural number, without leading zeros. `String(n)` agrees below 1e21;
   * from there on JavaScript prints an exponent, which this model does not.
   */
  function NatToDecimal(n: nat): (r: string)
    ensures |r| >= 1
    ensures forall k :: 0 <= k < |r| ==> '0' <= r[k] <= '9'
    ensures r[0] == '0' ==> n == 0
    decreases n
  {
    var digit := ['0' + (n % 10) as char];
    if n < 10 then digit else NatToDecimal(n / 10) + digit
  }

  /** The number a string of decimal digits denotes. */
  function DecimalValue(s: string): nat
    requires forall k :: 0 <= k < |s| ==> '0' <= s[k] <= '9'
  {
    if |s| == 0 then 0 else 10 * DecimalValue(s[..|s| - 1]) + (s[|s| - 1] - '0') as nat
  }

  /** Printing a number in decimal and reading it back gives the number. */
  lemma {:induction false} DecimalRoundTrip(n: nat)
    ensures DecimalValue(NatToDecimal(n)) == n
  {
    var r := NatToDecimal(n);
    if n >= 10 {
      DecimalRoundTrip(n / 10);
      assert r[..|r| - 1] == NatToDecimal(n / 10);
    }
  }

  /** `String(v)` for an integer number. */
  function IntToDecimal(n: int): string {
    if n < 0 then "-" + NatToDecimal(-n) else NatToDecimal(n)
  }

  /** `String(v)`, which is also what `s += v` appends to a string. */
  function ToStr(v: Value): (r: string)
    ensures v.Str? ==> r == v.s
  {
    match v
    case Undefined => "undefined"
    case Null => "null"
    case Bool(b) => if b then "true" else "false"
    case Num(n) => IntToDecimal(n)
    case Str(s) => s
    case Obj(_) => "[object Object]"
  }
}

=== FILE: line_demux.dfy ===
/**
 * The line demultiplexer both route handlers run on the backend's response body: every chunk
 * is appended to a buffer, the buffer is split on `\n`, every complete line is examined and the
 * unterminated last piece becomes the new buffer. This module holds the split and the two line
 * filters (streaming and blocking) as functions; the loops that drive them are the `OnData`
 * methods of the translators.
 */
module LineDemux {
  import opened Wrappers
  import opened Text

  /** The `\n`-terminated lines of a buffer, in order. */
  function CompleteLines(s: string): (lines: seq<string>)
    ensures forall k :: 0 <= k < |lines| ==> '\n' !in lines[k]
  {
    var pieces := Split(s, '\n');
    SplitPiecesFree(s, '\n');
    pieces[..|pieces| - 1]
  }

  /** The unterminated fragment after the last `\n`, kept as the next buffer. */
  function Remainder(s: string): (rest: string)
    ensures '\n' !in rest
  {
    var pieces := Split(s, '\n');
    SplitPiecesFree(s, '\n');
    pieces[|pieces| - 1]
  }

  /** Each line followed by its `\n`, concatenated. */
  function Terminated(lines: seq<string>): string {
    if lines == [] then "" else lines[0] + "\n" + Terminated(lines[1..])
  }

  lemma {:induction false} JoinAsTerminated(pieces: seq<string>)
    requires |pieces| >= 1
    ensures Join(pieces, "\n") == Terminated(pieces[..|pieces| - 1]) + pieces[|pieces| - 1]
  {
    if |pieces| > 1 {
      JoinAsTerminated(pieces[1..]);
      assert pieces[1..][..|pieces| - 2] == pieces[..|pieces| - 1][1..];
    }
  }

  /**
   * Buffer conservation: the complete lines, each with its `\n`, followed by the new buffer
   * spell out exactly the old buffer plus the chunk.
   */
  lemma Conservation(s: string)
    ensures Terminated(CompleteLines(s)) + Remainder(s) == s
  {
    JoinSplit(s, '\n');
    JoinAsTerminated(Split(s, '\n'));
  }

  /** Splitting `x + y` is splitting `x`, then splitting its last piece followed by `y`. */
  lemma {:induction false} SplitAppend(x: string, y: string, sep: char)
    ensures var px := Split(x, sep);
            Split(x + y, sep) == px[..|px| - 1] + Split(px[|px| - 1] + y, sep)
    decreases |x|
  {
    if sep !in x {
      SplitFree(x, sep);
    } else {
      var i := IndexOf(x, sep);
      var tail := x[i + 1..];
      SplitAtFirst(x, sep, i);
      assert (x + y)[..i] == x[..i] && (x + y)[i + 1..] == tail + y;
      SplitAtFirst(x + y, sep, i);
      SplitAppend(tail, y, sep);
      var pt := Split(tail, sep);
      PrefixedPieces(x[..i], pt, Split(x, sep), Split(pt[|pt| - 1] + y, sep));
    }
  }

  /** Pieces `px` that are `head` followed by `pt`: dropping the last piece commutes with the prefix. */
  lemma PrefixedPieces(head: string, pt: seq<string>, px: seq<string>, last: seq<string>)
    requires |pt| >= 1 && px == [head] + pt
    ensures px[..|px| - 1] + last == [head] + (pt[..|pt| - 1] + last)
    ensures px[|px| - 1] == pt[|pt| - 1]
  {
    assert px[..|px| - 1] == [head] + pt[..|pt| - 1];
  }

  /**
   * Chunk-boundary invariance of the buffering: delivering `c1` and then `c2` yields the same
   * complete lines and leaves the same buffer as delivering `c1 + c2` at once.
   */
  lemma ChunkBoundary(buffer: string, c1: string, c2: string)
    ensures CompleteLines(buffer + c1) + CompleteLines(Remainder(buffer + c1) + c2)
            == CompleteLines(buffer + c1 + c2)
    ensures Remainder(Remainder(buffer + c1) + c2) == Remainder(buffer + c1 + c2)
  {
    SplitAppend(buffer + c1, c2, '\n');
  }

  /** All chunks, concatenated. */
  function Concat(chunks: seq<string>): string {
    if chunks == [] then "" else chunks[0] + Concat(chunks[1..])
  }

  /** Peeling the first chunk off: the buffer and all chunks read as buffer-plus-first, then the rest. */
  lemma ConcatFirst(buffer: string, chunks: seq<string>)
    requires chunks != []
    ensures buffer + Concat(chunks) == (buffer + chunks[0]) + Concat(chunks[1..])
  {
    var rest := Concat(chunks[1..]);
    var first := chunks[0];
    assert Concat(chunks) == first + rest;
    AppendAssoc(buffer, first, rest);
  }

  /** The complete lines a sequence of `data` events hands on, starting from `buffer`. */
  function FedLines(buffer: string, chunks: seq<string>): (lines: seq<string>)
    ensures forall k :: 0 <= k < |lines| ==> '\n' !in lines[k]
    decreases chunks
  {
    if chunks == [] then []
    else CompleteLines(buffer + chunks[0]) + FedLines(Remainder(buffer + chunks[0]), chunks[1..])
  }

  /** The buffer left after a sequence of `data` events, starting from `buffer`. */
  function FedRemainder(buffer: string, chunks: seq<string>): (rest: string)
    ensures chunks != [] || '\n' !in buffer ==> '\n' !in rest
    decreases chunks
  {
    if chunks == [] then buffer else FedRemainder(Remainder(buffer + chunks[0]), chunks[1..])
  }

  /**
   * However the body is cut into chunks, the lines handed on and the final buffer are those of
   * the whole body delivered at once.
   */
  lemma {:induction false} FeedIsChunkingInvariant(buffer: string, chunks: seq<string>)
    requires '\n' !in buffer
    ensures FedLines(buffer, chunks) == CompleteLines(buffer + Concat(chunks))
    ensures FedRemainder(buffer, chunks) == Remainder(buffer + Concat(chunks))
    decreases chunks
  {
    if chunks == [] {
      SplitFree(buffer, '\n');
      assert buffer + "" == buffer;
    } else {
      var c := chunks[0];
      var rest := Concat(chunks[1..]);
      FeedIsChunkingInvariant(Remainder(buffer + c), chunks[1..]);
      ChunkBoundary(buffer, c, rest);
      ConcatFirst(buffer, chunks);
    }
  }

  /**
   * The streaming handler's filter: the trimmed line must start with `data:`, and what follows,
   * trimmed again, must start with `{`; that text is what is handed to `JSON.parse`.
   */
  function StreamingJsonText(line: string): (r: Option<string>)
    ensures r.Some? ==> StartsWith(Trim(line), "data:")
    ensures r.Some? ==> StartsWith(r.value, "{")
  {
    var l := Trim(line);
    if !StartsWith(l, "data:") then None
    else
      var rest := Trim(l[5..]);
      if StartsWith(rest, "{") then Some(rest) else None
  }

  /** `line.replace(/^data: /, "")`. */
  function StripDataPrefix(line: string): (r: string)
    ensures StartsWith(line, "data: ") ==> line == "data: " + r
    ensures !StartsWith(line, "data: ") ==> r == line
  {
    if StartsWith(line, "data: ") then line[6..] else line
  }

  /**
   * The blocking handler's filter: the trimmed line must be non-empty; with one leading
   * `data: ` removed and trimmed again it must start with `{` and end with `}`.
   */
  function BlockingJsonText(line: string): (r: Option<string>)
    ensures r.Some? ==> StartsWith(r.value, "{") && EndsWith(r.value, "}")
  {
    var l := Trim(line);
    if l == "" then None
    else
      var cleaned := Trim(StripDataPrefix(l));
      if StartsWith(cleaned, "{") && EndsWith(cleaned, "}") then Some(cleaned) else None
  }

  /** A canonical event line trims to `data: ` and its JSON text. */
  lemma TrimEventLine(json: string, pad: string)
    requires StartsWith(json, "{") && EndsWith(json, "}")
    requires forall k :: 0 <= k < |pad| ==> IsWhitespace(pad[k])
    ensures Trim("data: " + json + pad) == "data: " + json
  {
    var body := "data: " + json;
    assert body[0] == 'd' && body[|body| - 1] == json[|json| - 1] == '}';
    TrimPadded("", body, pad);
    assert "" + body + pad == "data: " + json + pad;
  }

  /**
   * On a canonical event line, `data: ` followed by a JSON object text and any trailing
   * whitespace (a `\r` for one), the streaming filter hands on the JSON text.
   */
  lemma StreamingAcceptsEventLine(json: string, pad: string)
    requires StartsWith(json, "{") && EndsWith(json, "}")
    requires forall k :: 0 <= k < |pad| ==> IsWhitespace(pad[k])
    ensures StreamingJsonText("data: " + json + pad) == Some(json)
  {
    TrimEventLine(json, pad);
    var l := "data: " + json;
    assert StartsWith(l, "data:");
    assert json[0] == '{' && json[|json| - 1] == '}';
    assert l[5..] == " " + json + "";
    TrimPadded(" ", json, "");
  }

  /** On the same canonical event line the blocking filter hands on the same JSON text. */
  lemma BlockingAcceptsEventLine(json: string, pad: string)
    requires StartsWith(json, "{") && EndsWith(json, "}")
    requires forall k :: 0 <= k < |pad| ==> IsWhitespace(pad[k])
    ensures BlockingJsonText("data: " + json + pad) == Some(json)
  {
    TrimEventLine(json, pad);
    var l := "data: " + json;
    assert StartsWith(l, "data: ");
    assert StripDataPrefix(l) == json;
    assert json[0] == '{' && json[|json| - 1] == '}';
    TrimUnchanged(json);
  }

  /**
   * `data:` directly followed by a JSON object, without the space: the streaming filter
   * accepts the line, the blocking one drops it.
   */
  lemma FiltersDisagreeWithoutSpace(json: string)
    requires StartsWith(json, "{") && EndsWith(json, "}")
    ensures StreamingJsonText("data:" + json) == Some(json)
    ensures BlockingJsonText("data:" + json) == None
  {
    var line := "data:" + json;
    assert line[0] == 'd' && line[|line| - 1] == '}';
    TrimUnchanged(line);
    StreamingAcceptsUnspaced(json, line);
    BlockingDropsUnspaced(json, line);
  }

  lemma StreamingAcceptsUnspaced(json: string, line: string)
    requires StartsWith(json, "{") && EndsWith(json, "}")
    requires line == "data:" + json && Trim(line) == line
    ensures StreamingJsonText(line) == Some(json)
  {
    assert line[..5] == "data:";
    assert line[5..] == json;
    assert json[0] == '{' && json[|json| - 1] == '}';
    TrimUnchanged(json);
  }

  lemma BlockingDropsUnspaced(json: string, line: string)
    requires StartsWith(json, "{")
    requires line == "data:" + json && Trim(line) == line
    ensures BlockingJsonText(line) == None
  {
    assert line[5] == '{';
    assert StripDataPrefix(line) == line;
    assert line[0] == 'd';
  }

  /** A bare JSON object line: the blocking filter accepts it, the streaming one drops it. */
  lemma FiltersDisagreeOnBareJson(json: string)
    requires StartsWith(json, "{") && EndsWith(json, "}")
    ensures StreamingJsonText(json) == None
    ensures BlockingJsonText(json) == Some(json)
  {
    assert json[0] == '{' && json[|json| - 1] == '}';
    TrimUnchanged(json);
    assert !StartsWith(json, "data:") by {
      if |json| >= 5 { assert json[..5][0] != "data:"[0]; }
    }
    assert !StartsWith(json, "data: ") by {
      if |json| >= 6 { assert json[..6][0] != "data: "[0]; }
    }
  }
}

=== FILE: request_composer.dfy ===
/**
 * The request composer of both POST handlers: the authorization check, the query text and
 * image list taken from the chat messages (or the legacy `prompt`), the history template of
 * `Chat` bots, and the payload sent to the backend.
 */
module RequestComposer {
  import opened Wrappers
  import opened Text
  import opened JsValue
  import opened Auth
  import opened Config

  /** One element of a message's part list (OpenAI vision format). */
  datatype Part =
    | TextPart(text: string)     // {type: 'text', text}
    | ImageUrlPart(url: string)  // {type: 'image_url', image_url: {url}}; "" for a missing url
    | OtherPart                  // any other type

  /** A message's `content`: a string, a part list, or any other value. */
  datatype Content = TextContent(s: string) | PartList(parts: seq<Part>) | OtherContent(v: Value)

  datatype Message = Message(role: Value, content: Content)

  /** The body of `POST /v1/chat/completions`; `stream` is `Undefined` when absent. */
  datatype ChatRequest = ChatRequest(model: Value, messages: seq<Message>, stream: Value)

  /** The body of `POST /v1/completions`. */
  datatype CompletionRequest = CompletionRequest(model: Value, prompt: Value, stream: Value)

  /** `{type: 'image', transfer_method: 'base64', upload_file}`. */
  datatype Image = Image(kind: string, transferMethod: string, uploadFile: string)

  /** The backend request body; `query` and `files` are absent when `None`. */
  datatype Payload = Payload(
    inputs: map<string, Value>,
    query: Option<Value>,
    responseMode: string,
    conversationId: string,
    user: string,
    autoGenerateName: bool,
    files: Option<seq<Image>>)

  /**
   * What a handler does before any response frame: reject with 401, send nothing (the
   * exception the outer `catch` only logs), or call the backend with a token and a payload.
   */
  datatype Plan = Reject(rejection: Rejection) | NoReply | Call(token: string, payload: Payload, streaming: bool)

  // ---------------------------------------------------------------- images and text parts

  /** The image a part contributes: a `data:image` URL with a non-empty field after its first comma. */
  function PartImage(part: Part): (r: seq<Image>)
    ensures |r| <= 1
    ensures r != [] ==> && part.ImageUrlPart? && StartsWith(part.url, "data:image")
                        && SecondPiece(part.url, ',') == Some(r[0].uploadFile)
                        && r[0] == Image("image", "base64", r[0].uploadFile) && r[0].uploadFile != ""
  {
    if part.ImageUrlPart? && part.url != "" && StartsWith(part.url, "data:image") then
      match SecondPiece(part.url, ',')
      case Some(data) => if data != "" then [Image("image", "base64", data)] else []
      case None => []
    else []
  }

  /** The images of a part list, in order. */
  function PartImages(parts: seq<Part>): seq<Image> {
    if parts == [] then [] else PartImages(parts[..|parts| - 1]) + PartImage(parts[|parts| - 1])
  }

  /** The query text of a part list: each text part overwrites the previous one. */
  function LastText(parts: seq<Part>): (r: string)
    ensures r == "" || exists k :: 0 <= k < |parts| && parts[k] == TextPart(r)
  {
    if parts == [] then ""
    else if parts[|parts| - 1].TextPart? then parts[|parts| - 1].text
    else LastText(parts[..|parts| - 1])
  }

  /** The loop over the last message's parts. */
  method ExtractFromParts(parts: seq<Part>) returns (query: string, images: seq<Image>)
    ensures query == LastText(parts)
    ensures images == PartImages(parts)
  {
    query := "";
    images := [];
    for i := 0 to |parts|
      invariant query == LastText(parts[..i])
      invariant images == PartImages(parts[..i])
    {
      var part := parts[i];
      assert parts[..i + 1][..i] == parts[..i];
      if part.TextPart? {
        query := part.text;
      } else if part.ImageUrlPart? && part.url != "" {
        var imageUrl := part.url;
        if StartsWith(imageUrl, "data:image") {
          var base64Data := SecondPiece(imageUrl, ',');
          if base64Data.Some? && base64Data.value != "" {
            images := images + [Image("image", "base64", base64Data.value)];
          }
        }
      }
    }
    assert parts[..|parts|] == parts;
  }

  /** The last text part wins: later non-text parts leave its text in place. */
  lemma {:induction false} LastTextPartWins(parts: seq<Part>, j: nat)
    requires j < |parts| && parts[j].TextPart?
    requires forall k :: j < k < |parts| ==> !parts[k].TextPart?
    ensures LastText(parts) == parts[j].text
    decreases |parts|
  {
    if j < |parts| - 1 {
      LastTextPartWins(parts[..|parts| - 1], j);
    }
  }

  /** Without a text part the query stays empty. */
  lemma {:induction false} NoTextPartNoText(parts: seq<Part>)
    requires forall k :: 0 <= k < |parts| ==> !parts[k].TextPart?
    ensures LastText(parts) == ""
    decreases |parts|
  {
    if parts != [] {
      NoTextPartNoText(parts[..|parts| - 1]);
    }
  }

  /** The image list of a concatenation is the concatenation of the image lists: order is kept. */
  lemma {:induction false} PartImagesAppend(a: seq<Part>, b: seq<Part>)
    ensures PartImages(a + b) == PartImages(a) + PartImages(b)
    decreases |b|
  {
    if b == [] {
      assert a + b == a;
    } else {
      var b' := b[..|b| - 1];
      var p := b[|b| - 1];
      assert (a + b)[..|a + b| - 1] == a + b' && (a + b)[|a + b| - 1] == p;
      PartImagesAppend(a, b');
      AppendAssoc(PartImages(a), PartImages(b'), PartImage(p));
    }
  }

  /**
   * Every image comes from a `data:image` URL part, as the field after its first comma;
   * remote (http/https) URLs never contribute.
   */
  lemma {:induction false} PartImagesSound(parts: seq<Part>, img: Image)
    requires img in PartImages(parts)
    ensures exists j :: 0 <= j < |parts| && parts[j].ImageUrlPart?
                        && StartsWith(parts[j].url, "data:image")
                        && SecondPiece(parts[j].url, ',') == Some(img.uploadFile)
                        && img == Image("image", "base64", img.uploadFile) && img.uploadFile != ""
    decreases |parts|
  {
    var init := parts[..|parts| - 1];
    if img in PartImages(init) {
      PartImagesSound(init, img);
      var j :| 0 <= j < |init| && init[j].ImageUrlPart?
               && StartsWith(init[j].url, "data:image")
               && SecondPiece(init[j].url, ',') == Some(img.uploadFile)
               && img == Image("image", "base64", img.uploadFile) && img.uploadFile != "";
      assert parts[j] == init[j];
    } else {
      assert img in PartImage(parts[|parts| - 1]);
    }
  }

  /** Every `data:image` part with a non-empty field after its first comma contributes its image. */
  lemma PartImagesComplete(parts: seq<Part>, j: nat, data: string)
    requires j < |parts| && parts[j].ImageUrlPart? && StartsWith(parts[j].url, "data:image")
    requires SecondPiece(parts[j].url, ',') == Some(data) && data != ""
    ensures Image("image", "base64", data) in PartImages(parts)
  {
    var img := Image("image", "base64", data);
    PartImagesAround(parts, j);
    DataImagePart(parts[j], data);
    var left := PartImages(parts[..j]);
    assert (left + [img] + PartImages(parts[j + 1..]))[|left|] == img;
  }

  /** The images of a part list: those before part `j`, part `j`'s, then those after it. */
  lemma PartImagesAround(parts: seq<Part>, j: nat)
    requires j < |parts|
    ensures PartImages(parts) == PartImages(parts[..j]) + PartImage(parts[j]) + PartImages(parts[j + 1..])
  {
    var pre := parts[..j + 1];
    assert parts == pre + parts[j + 1..];
    PartImagesAppend(pre, parts[j + 1..]);
    PartImagesLast(pre);
    assert pre[..j] == parts[..j] && pre[j] == parts[j];
  }

  /** The images of a non-empty part list: those before its last part, then the last part's. */
  lemma PartImagesLast(parts: seq<Part>)
    requires parts != []
    ensures PartImages(parts) == PartImages(parts[..|parts| - 1]) + PartImage(parts[|parts| - 1])
  {
  }

  /** A `data:image` part with a non-empty field after its first comma yields that image. */
  lemma DataImagePart(part: Part, data: string)
    requires part.ImageUrlPart? && StartsWith(part.url, "data:image")
    requires SecondPiece(part.url, ',') == Some(data) && data != ""
    ensures PartImage(part) == [Image("image", "base64", data)]
  {
    assert part.url != "" by { assert |part.url| >= |"data:image"|; }
  }

  // ---------------------------------------------------------------- history template

  /** `${message.content}`: a part list prints as `[object Object]` per part, comma-separated. */
  function ContentString(c: Content): string {
    match c
    case TextContent(s) => s
    case PartList(parts) => Join(seq(|parts|, _ => "[object Object]"), ",")
    case OtherContent(v) => ToStr(v)
  }

  /** `${message.role}: ${message.content}`. */
  function HistoryLine(m: Message): string {
    ToStr(m.role) + ": " + ContentString(m.content)
  }

  const HistoryOpening: string := "here is our talk history:\n'''\n"
  const QuestionOpening: string := "\n'''\n\nhere is my question:\n"

  /** The history lines: one per message except the last. */
  function HistoryLines(messages: seq<Message>): (lines: seq<string>)
    requires |messages| >= 1
    ensures |lines| == |messages| - 1
  {
    seq(|messages| - 1, k requires 0 <= k < |messages| - 1 => HistoryLine(messages[k]))
  }

  /** The query a `Chat` bot receives when the last message is plain text. */
  function HistoryQuery(messages: seq<Message>): string
    requires |messages| >= 1 && messages[|messages| - 1].content.TextContent?
  {
    HistoryOpening + Join(HistoryLines(messages), "\n") + QuestionOpening + messages[|messages| - 1].content.s
  }

  /**
   * The template can be read back: it opens with the history header, ends with the question
   * header and the question, and (when no history line holds a newline) the text between them
   * splits into exactly the history lines.
   */
  lemma HistoryQueryReadBack(messages: seq<Message>)
    requires |messages| >= 2 && messages[|messages| - 1].content.TextContent?
    requires forall k :: 0 <= k < |messages| - 1 ==> '\n' !in HistoryLine(messages[k])
    ensures var q := HistoryQuery(messages);
            var tail := QuestionOpening + messages[|messages| - 1].content.s;
            && StartsWith(q, HistoryOpening) && EndsWith(q, tail)
            && |HistoryOpening| + |tail| <= |q|
            && Split(q[|HistoryOpening|..|q| - |tail|], '\n') == HistoryLines(messages)
  {
    var lines := HistoryLines(messages);
    var middle := Join(lines, "\n");
    var question := messages[|messages| - 1].content.s;
    var q := HistoryQuery(messages);
    var tail := QuestionOpening + question;
    assert q == HistoryOpening + middle + tail;
    assert q[..|HistoryOpening|] == HistoryOpening;
    assert q[|q| - |tail|..] == tail;
    assert q[|HistoryOpening|..|q| - |tail|] == middle;
    SplitJoin(lines, '\n');
  }

  /** The query text of a chat request (lines 37-79), `messages` non-empty. */
  function ChatQuery(botType: string, messages: seq<Message>): string
    requires |messages| >= 1
  {
    match messages[|messages| - 1].content
    case PartList(parts) => LastText(parts)
    case TextContent(s) => if botType == "Chat" then HistoryQuery(messages) else s
    case OtherContent(_) => ""
  }

  /** The images of a chat request: those of the last message's part list. */
  function ChatImages(messages: seq<Message>): seq<Image>
    requires |messages| >= 1
  {
    match messages[|messages| - 1].content
    case PartList(parts) => PartImages(parts)
    case _ => []
  }

  // ---------------------------------------------------------------- payload

  /** `data.stream !== undefined ? data.stream : false`. */
  function StreamFlag(stream: Value): (r: Value)
    ensures r != Undefined
    ensures Truthy(r) <==> Truthy(stream)
  {
    if stream == Undefined then Bool(false) else stream
  }

  /** The backend payload for a query, a `stream` value and an image list. */
  function BuildPayload(inputVariable: string, query: Value, stream: Value, images: seq<Image>): (p: Payload)
    ensures p.conversationId == "" && p.user == "apiuser" && !p.autoGenerateName
    ensures p.responseMode == (if Truthy(stream) then "streaming" else "blocking")
    ensures p.files.Some? <==> |images| > 0
  {
    var mode := if Truthy(StreamFlag(stream)) then "streaming" else "blocking";
    var body :=
      if inputVariable != "" then Payload(map[inputVariable := query], None, mode, "", "apiuser", false, None)
      else Payload(map[], Some(query), mode, "", "apiuser", false, None);
    if |images| > 0 then body.(files := Some(images)) else body
  }

  /** Where the backend finds the query text in a payload. */
  function PayloadQuery(inputVariable: string, p: Payload): Option<Value> {
    if inputVariable != "" then (if inputVariable in p.inputs then Some(p.inputs[inputVariable]) else None)
    else p.query
  }

  /** The images a payload carries. */
  function PayloadImages(p: Payload): seq<Image> {
    if p.files.Some? then p.files.value else []
  }

  /**
   * The payload carries the query under the input variable (with no `query` field) or, when no
   * input variable is configured, as `query` with empty `inputs`; and it carries the images.
   */
  lemma PayloadRoundTrip(inputVariable: string, query: Value, stream: Value, images: seq<Image>)
    ensures var p := BuildPayload(inputVariable, query, stream, images);
            && PayloadQuery(inputVariable, p) == Some(query)
            && PayloadImages(p) == images
            && (inputVariable != "" ==> p.inputs.Keys == {inputVariable} && p.query.None?)
            && (inputVariable == "" ==> p.inputs == map[])
  {
  }

  /** The payload of a chat request with a non-empty message list. */
  function ChatPayload(settings: Settings, req: ChatRequest): (p: Payload)
    requires |req.messages| >= 1
    ensures PayloadQuery(settings.inputVariable, p) == Some(Str(ChatQuery(settings.botType, req.messages)))
    ensures PayloadImages(p) == ChatImages(req.messages)
    ensures p.responseMode == (if Truthy(req.stream) then "streaming" else "blocking")
  {
    PayloadRoundTrip(settings.inputVariable, Str(ChatQuery(settings.botType, req.messages)), req.stream, ChatImages(req.messages));
    BuildPayload(settings.inputVariable, Str(ChatQuery(settings.botType, req.messages)),
                 req.stream, ChatImages(req.messages))
  }

  // ---------------------------------------------------------------- handlers

  /** The chat handler up to the backend call (completions.js lines 16-112). */
  method PlanChat(settings: Settings, header: Option<string>, req: ChatRequest) returns (plan: Plan)
    ensures plan.Reject? <==> Authorize(header).Err?
    ensures plan.Reject? ==> plan.rejection == Unauthorized
    ensures Authorize(header).Ok? && |req.messages| == 0 ==> plan == NoReply
    ensures Authorize(header).Ok? && |req.messages| > 0 ==>
              plan == Call(Authorize(header).value, ChatPayload(settings, req), Truthy(req.stream))
  {
    var auth := Authorize(header);
    if auth.Err? {
      return Reject(auth.error);
    }
    var messages := req.messages;
    if |messages| == 0 {
      return NoReply;
    }
    var lastMessage := messages[|messages| - 1];
    var queryString := "";
    var imageList := [];
    if lastMessage.content.PartList? {
      queryString, imageList := ExtractFromParts(lastMessage.content.parts);
    } else if lastMessage.content.TextContent? {
      queryString := lastMessage.content.s;
    }
    if settings.botType == "Chat" && lastMessage.content.TextContent? {
      queryString := HistoryOpening + Join(HistoryLines(messages), "\n") + QuestionOpening + lastMessage.content.s;
    }
    var requestBody := BuildPayload(settings.inputVariable, Str(queryString), req.stream, imageList);
    plan := Call(auth.value, requestBody, Truthy(StreamFlag(req.stream)));
  }

  /** The legacy completion handler up to the backend call (textCompletions.js lines 16-64). */
  function PlanCompletion(settings: Settings, header: Option<string>, req: CompletionRequest): (plan: Plan)
    ensures plan.Reject? <==> Authorize(header).Err?
    ensures plan.Reject? ==> plan.rejection == Unauthorized
    ensures plan.Call? ==> && plan.token == Authorize(header).value
                           && PayloadQuery(settings.inputVariable, plan.payload) == Some(req.prompt)
                           && plan.payload.files.None?
                           && plan.streaming == Truthy(req.stream)
    ensures !plan.NoReply?
  {
    match Authorize(header)
    case Err(rejection) => Reject(rejection)
    case Ok(token) =>
      PayloadRoundTrip(settings.inputVariable, req.prompt, req.stream, []);
      Call(token, BuildPayload(settings.inputVariable, req.prompt, req.stream, []), Truthy(StreamFlag(req.stream)))
  }

  /** In `Chat` mode a part list drops the history: the query is the part list's text alone. */
  lemma PartListDropsHistory(messages: seq<Message>)
    requires |messages| >= 1 && messages[|messages| - 1].content.PartList?
    ensures ChatQuery("Chat", messages) == LastText(messages[|messages| - 1].content.parts)
  {
  }
}

=== FILE: streaming.dfy ===
/**
 * The streaming response translator (`stream: true`): each backend event becomes at most one
 * server-sent-event frame, guarded by the `isResponseEnded` flag, and the first non-empty
 * delta loses its leading whitespace. The response object is modelled as the log of the calls
 * the handler makes on it: status changes, frame writes and `end()`.
 */
module Streaming {
  import opened Wrappers
  import opened Text
  import opened JsValue
  import opened LineDemux
  import opened Translator

  /** The single choice of a chunk frame: `delta` for chat, `text` for legacy completions. */
  datatype Choice =
    | DeltaChoice(content: Option<Value>, finishReason: Option<string>)
    | TextChoice(text: Value, finishReason: Option<string>)

  /** One `data: ...\n\n` frame; the chunk id (a clock reading) is not modelled. */
  datatype Frame =
    | Chunk(objectName: string, created: Value, model: Value, choice: Choice)
    | DoneSentinel
    | ErrorFrame(error: Value)

  /** One call on the response: `res.status(code)`, `res.write(frame)` or `res.end()`. */
  datatype ResOp = SetStatus(code: int) | Write(frame: Frame) | End

  /** The handler's fixed context: its endpoint, `OUTPUT_VARIABLE` and the request's `model`. */
  datatype Setup = Setup(endpoint: Endpoint, outputVariable: string, model: Value)

  function ChunkObject(endpoint: Endpoint): string {
    if endpoint == ChatEndpoint then "chat.completion.chunk" else "text_completion.chunk"
  }

  /** A content frame: `delta: {content}` or `text`, with `finish_reason: null`. */
  function ContentFrame(setup: Setup, created: Value, content: Value): Frame {
    var choice := if setup.endpoint == ChatEndpoint then DeltaChoice(Some(content), None) else TextChoice(content, None);
    Chunk(ChunkObject(setup.endpoint), created, setup.model, choice)
  }

  /** The stop frame: `delta: {}` or `text: ""`, with `finish_reason: "stop"`. */
  function StopFrame(setup: Setup, created: Value): Frame {
    var choice := if setup.endpoint == ChatEndpoint then DeltaChoice(None, Some("stop")) else TextChoice(Str(""), Some("stop"));
    Chunk(ChunkObject(setup.endpoint), created, setup.model, choice)
  }

  predicate IsContentWrite(op: ResOp) {
    op.Write? && op.frame.Chunk? && op.frame.choice.finishReason.None?
  }

  predicate IsStopWrite(op: ResOp) {
    op.Write? && op.frame.Chunk? && op.frame.choice.finishReason.Some?
  }

  /** The writes `isResponseEnded` suppresses: content, stop and `[DONE]` frames. */
  predicate Guarded(op: ResOp) {
    IsContentWrite(op) || IsStopWrite(op) || op == Write(DoneSentinel)
  }

  /**
   * The handler's mutable state: its two flags, the log of calls on the response, and whether a
   * TypeError has escaped the `data` listener (after which nothing more happens).
   */
  datatype StreamState = StreamState(isFirstChunk: bool, isResponseEnded: bool, crashed: bool, log: seq<ResOp>)

  const Initial: StreamState := StreamState(true, false, false, [])

  /** Writes a content frame when the delta is truthy and the response has not ended. */
  function Emit(setup: Setup, st: StreamState, obj: Json, content: Value): StreamState {
    if Truthy(content) && !st.isResponseEnded then
      st.(log := st.log + [Write(ContentFrame(setup, Field(obj, "created_at"), content))])
    else st
  }

  /** A content event's delta: trimmed when it is the first truthy one (a TypeError unless a string), then written. */
  function OnDelta(setup: Setup, st: StreamState, obj: Json, d: Value): StreamState {
    if st.isFirstChunk && Truthy(d) then
      if d.Str? then Emit(setup, st.(isFirstChunk := false), obj, Str(TrimStart(d.s)))
      else st.(crashed := true)
    else Emit(setup, st, obj, d)
  }

  /** The calls a finishing event makes: stop frame, `[DONE]` and `end()`, or only `end()` once ended. */
  function FinishOps(setup: Setup, created: Value, ended: bool): seq<ResOp> {
    if ended then [End] else [Write(StopFrame(setup, created)), Write(DoneSentinel), End]
  }

  /** The calls an error event makes: status 500, the error frame, `[DONE]` unless ended, `end()`. */
  function ErrorOps(message: Value, ended: bool): seq<ResOp> {
    var head := [SetStatus(500), Write(ErrorFrame(message))];
    if ended then head + [End] else head + [Write(DoneSentinel), End]
  }

  /**
   * The effect of one parsed event (completions.js lines 144-233). The response is append-only,
   * an ended response stays ended, and the event that ends it calls `end()` last.
   */
  function OnEvent(setup: Setup, st: StreamState, obj: Json): (r: StreamState)
    ensures st.crashed ==> r == st
    ensures st.log <= r.log
    ensures st.isResponseEnded ==> r.isResponseEnded
    ensures !st.isFirstChunk ==> !r.isFirstChunk
    ensures r.isResponseEnded && !st.isResponseEnded ==> |r.log| > 0 && r.log[|r.log| - 1] == End
  {
    if st.crashed then st
    else if IsContentEvent(obj) then
      match Delta(setup.outputVariable, obj)
      case None => st.(crashed := true)
      case Some(d) => OnDelta(setup, st, obj, d)
    else if IsFinishEvent(obj) then
      st.(log := st.log + FinishOps(setup, Field(obj, "created_at"), st.isResponseEnded), isResponseEnded := true)
    else if EventIs(obj, "error") then
      st.(log := st.log + ErrorOps(Field(obj, "message"), st.isResponseEnded), isResponseEnded := true)
    else st
  }

  /** The effect of one complete line: filtered, parsed, then handled as an event. */
  function OnLine(setup: Setup, parse: string -> Option<Json>, st: StreamState, line: string): (r: StreamState)
    ensures st.log <= r.log
    ensures st.isResponseEnded ==> r.isResponseEnded
    ensures StreamingJsonText(line).None? ==> r == st
  {
    match StreamingJsonText(line)
    case None => st
    case Some(text) =>
      match parse(text)
      case None => st
      case Some(obj) => OnEvent(setup, st, obj)
  }

  /** The effect of a run of complete lines, in order. */
  function OnLines(setup: Setup, parse: string -> Option<Json>, st: StreamState, lines: seq<string>): StreamState
    decreases |lines|
  {
    if lines == [] then st else OnLines(setup, parse, OnLine(setup, parse, st, lines[0]), lines[1..])
  }

  /** The effect of a sequence of `data` events, each split against the buffer left by the last. */
  function OnChunks(setup: Setup, parse: string -> Option<Json>, st: StreamState, buffer: string, chunks: seq<string>): StreamState
    decreases |chunks|
  {
    if chunks == [] then st
    else
      var all := buffer + chunks[0];
      OnChunks(setup, parse, OnLines(setup, parse, st, CompleteLines(all)), Remainder(all), chunks[1..])
  }

  // ---------------------------------------------------------------- the handler as a class

  class StreamingTranslator {
    const setup: Setup
    const parse: string -> Option<Json>
    var buffer: string
    var isFirstChunk: bool
    var isResponseEnded: bool
    var crashed: bool
    var log: seq<ResOp>

    function State(): StreamState
      reads this
    {
      StreamState(isFirstChunk, isResponseEnded, crashed, log)
    }

    constructor (setup: Setup, parse: string -> Option<Json>)
      ensures this.setup == setup && this.parse == parse
      ensures buffer == "" && State() == Initial
    {
      this.setup := setup;
      this.parse := parse;
      buffer := "";
      isFirstChunk := true;
      isResponseEnded := false;
      crashed := false;
      log := [];
    }

    /** The branch on `chunkObj.event` for one parsed event. */
    method HandleEvent(obj: Json)
      requires !crashed
      modifies this
      ensures State() == OnEvent(setup, old(State()), obj)
      ensures buffer == old(buffer)
    {
      if EventIs(obj, "message") || EventIs(obj, "agent_message") || EventIs(obj, "text_chunk") {
        HandleContent(obj);
      } else if EventIs(obj, "workflow_finished") || EventIs(obj, "message_end") {
        HandleFinish(obj);
      } else if EventIs(obj, "agent_thought") {
      } else if EventIs(obj, "ping") {
      } else if EventIs(obj, "error") {
        HandleError(obj);
      }
    }

    /** A finishing event: stop frame and `[DONE]` unless ended, then `end()`. */
    method HandleFinish(obj: Json)
      modifies this
      ensures State() == old(State()).(log := old(log) + FinishOps(setup, Field(obj, "created_at"), old(isResponseEnded)),
                                       isResponseEnded := true)
      ensures buffer == old(buffer)
    {
      var created := Field(obj, "created_at");
      if !isResponseEnded {
        log := log + [Write(StopFrame(setup, created))];
      }
      if !isResponseEnded {
        log := log + [Write(DoneSentinel)];
      }
      log := log + [End];
      isResponseEnded := true;
    }

    /** An error event: status 500 and the error frame, `[DONE]` unless ended, then `end()`. */
    method HandleError(obj: Json)
      modifies this
      ensures State() == old(State()).(log := old(log) + ErrorOps(Field(obj, "message"), old(isResponseEnded)),
                                       isResponseEnded := true)
      ensures buffer == old(buffer)
    {
      log := log + [SetStatus(500), Write(ErrorFrame(Field(obj, "message")))];
      if !isResponseEnded {
        log := log + [Write(DoneSentinel)];
      }
      log := log + [End];
      isResponseEnded := true;
    }

    /** A content event: pick the delta, trim the first non-empty one, write it while live. */
    method HandleContent(obj: Json)
      requires !crashed && IsContentEvent(obj)
      modifies this
      ensures State() == OnEvent(setup, old(State()), obj)
      ensures buffer == old(buffer)
    {
      var chunkContent: Value;
      if EventIs(obj, "text_chunk") {
        var data := Field(obj, "data");
        if Nullish(data) {
          crashed := true;
          return;
        }
        chunkContent := Prop(data, "text").value;
      } else if setup.outputVariable != "" && Truthy(Field(obj, "answer")) && Field(obj, "answer").Obj? {
        chunkContent := Prop(Field(obj, "answer"), setup.outputVariable).value;
      } else {
        chunkContent := Field(obj, "answer");
      }
      WriteDelta(obj, chunkContent);
    }

    /** The rest of a content event once its delta is known: trim it if first, write it while live. */
    method WriteDelta(obj: Json, delta: Value)
      modifies this
      ensures State() == OnDelta(setup, old(State()), obj, delta)
      ensures buffer == old(buffer)
    {
      var chunkContent := delta;
      if isFirstChunk {
        if Truthy(chunkContent) {
          if !chunkContent.Str? {
            crashed := true;
            return;
          }
          chunkContent := Str(TrimStart(chunkContent.s));
          isFirstChunk := false;
        }
      }
      if Truthy(chunkContent) {
        if !isResponseEnded {
          log := log + [Write(ContentFrame(setup, Field(obj, "created_at"), chunkContent))];
        }
      }
    }

    /** One iteration of the line loop: trim, check `data:` and `{`, parse, handle. */
    method HandleLine(rawLine: string)
      requires !crashed
      modifies this
      ensures State() == OnLine(setup, parse, old(State()), rawLine)
      ensures buffer == old(buffer)
    {
      var line := Trim(rawLine);
      if !StartsWith(line, "data:") {
        return;
      }
      line := Trim(line[5..]);
      if !StartsWith(line, "{") {
        return;
      }
      assert StreamingJsonText(rawLine) == Some(line);
      var chunkObj := parse(line);
      if chunkObj.None? {
        return;
      }
      HandleEvent(chunkObj.value);
    }

    /** The loop over one chunk's complete lines; a TypeError leaves it. */
    method HandleLines(lines: seq<string>)
      requires !crashed
      modifies this
      ensures State() == OnLines(setup, parse, old(State()), lines)
      ensures buffer == old(buffer)
    {
      for i := 0 to |lines|
        invariant !crashed && buffer == old(buffer)
        invariant OnLines(setup, parse, State(), lines[i..]) == OnLines(setup, parse, old(State()), lines)
      {
        ghost var before := State();
        HandleLine(lines[i]);
        OnLinesStep(setup, parse, before, State(), lines, i);
        if crashed {
          return;
        }
      }
      OnLinesDone(setup, parse, State(), lines);
    }

    /** The `data` listener: append, split, handle every complete line, keep the fragment. */
    method OnData(chunk: string)
      modifies this
      ensures State() == OnLines(setup, parse, old(State()), CompleteLines(old(buffer) + chunk))
      ensures !crashed ==> buffer == Remainder(old(buffer) + chunk)
      ensures crashed && !old(crashed) ==> buffer == old(buffer) + chunk
    {
      if crashed {
        CrashedAbsorbs(setup, parse, State(), CompleteLines(buffer + chunk));
        return;
      }
      buffer := buffer + chunk;
      var lines := Split(buffer, '\n');
      HandleLines(lines[..|lines| - 1]);
      if crashed {
        return;
      }
      buffer := lines[|lines| - 1];
    }
  }

  // ---------------------------------------------------------------- properties

  /** Once a TypeError has escaped, later lines change nothing. */
  lemma {:induction false} CrashedAbsorbs(setup: Setup, parse: string -> Option<Json>, st: StreamState, lines: seq<string>)
    requires st.crashed
    ensures OnLines(setup, parse, st, lines) == st
    decreases |lines|
  {
    if lines != [] {
      CrashedAbsorbs(setup, parse, st, lines[1..]);
    }
  }

  /** One step of the line loop: handling line `i` leaves lines `i + 1..` to do, or nothing after a crash. */
  lemma OnLinesStep(setup: Setup, parse: string -> Option<Json>, before: StreamState, after: StreamState, lines: seq<string>, i: nat)
    requires i < |lines| && after == OnLine(setup, parse, before, lines[i])
    ensures OnLines(setup, parse, before, lines[i..]) == OnLines(setup, parse, after, lines[i + 1..])
    ensures after.crashed ==> OnLines(setup, parse, before, lines[i..]) == after
  {
    assert lines[i..][0] == lines[i] && lines[i..][1..] == lines[i + 1..];
    if after.crashed {
      CrashedAbsorbs(setup, parse, after, lines[i + 1..]);
    }
  }

  lemma OnLinesDone(setup: Setup, parse: string -> Option<Json>, st: StreamState, lines: seq<string>)
    ensures OnLines(setup, parse, st, lines[|lines|..]) == st
  {
    assert lines[|lines|..] == [];
  }

  /** Handling `a + b` is handling `a`, then `b`. */
  lemma {:induction false} OnLinesAppend(setup: Setup, parse: string -> Option<Json>, st: StreamState, a: seq<string>, b: seq<string>)
    ensures OnLines(setup, parse, st, a + b) == OnLines(setup, parse, OnLines(setup, parse, st, a), b)
    decreases |a|
  {
    if a == [] {
      assert a + b == b;
    } else {
      assert (a + b)[0] == a[0] && (a + b)[1..] == a[1..] + b;
      OnLinesAppend(setup, parse, OnLine(setup, parse, st, a[0]), a[1..], b);
    }
  }

  /**
   * Chunk-boundary invariance: however the backend body is cut into chunks, the handler ends in
   * the state it reaches on the whole body's complete lines.
   */
  lemma {:induction false} OnChunksIsChunkingInvariant(setup: Setup, parse: string -> Option<Json>, st: StreamState, buffer: string, chunks: seq<string>)
    requires '\n' !in buffer
    ensures OnChunks(setup, parse, st, buffer, chunks) == OnLines(setup, parse, st, CompleteLines(buffer + Concat(chunks)))
    decreases |chunks|
  {
    if chunks == [] {
      SplitFree(buffer, '\n');
      assert buffer + Concat(chunks) == buffer;
    } else {
      var all := buffer + chunks[0];
      var rest := Concat(chunks[1..]);
      OnChunksIsChunkingInvariant(setup, parse, OnLines(setup, parse, st, CompleteLines(all)), Remainder(all), chunks[1..]);
      ChunkBoundary(buffer, chunks[0], rest);
      ConcatFirst(buffer, chunks);
      OnLinesAppend(setup, parse, st, CompleteLines(all), CompleteLines(Remainder(all) + rest));
    }
  }

  /**
   * The terminal-frame discipline of a response log: nothing guarded is written after an
   * `end()`, every stop frame is directly followed by `[DONE]`, and every `[DONE]` by `end()`.
   */
  predicate WellTerminated(log: seq<ResOp>) {
    && (forall i, j :: 0 <= i < j < |log| && log[i] == End ==> !Guarded(log[j]))
    && (forall i :: 0 <= i < |log| && IsStopWrite(log[i]) ==> i + 1 < |log| && log[i + 1] == Write(DoneSentinel))
    && (forall i :: 0 <= i < |log| && log[i] == Write(DoneSentinel) ==> i + 1 < |log| && log[i + 1] == End)
  }

  /** The state invariant: a well-terminated log, and `isResponseEnded` exactly when `end()` was called. */
  predicate Inv(st: StreamState) {
    WellTerminated(st.log) && (st.isResponseEnded <==> End in st.log)
  }

  lemma AppendWellTerminated(log: seq<ResOp>, ops: seq<ResOp>)
    requires WellTerminated(log) && WellTerminated(ops)
    requires End in log ==> forall k :: 0 <= k < |ops| ==> !Guarded(ops[k])
    ensures WellTerminated(log + ops)
  {
    var all := log + ops;
    forall i, j | 0 <= i < j < |all| && all[i] == End
      ensures !Guarded(all[j])
    {
      if j >= |log| {
        assert all[j] == ops[j - |log|];
        if i < |log| {
          assert log[i] == End;
        }
      }
    }
  }

  /** A content event appends at most one content frame, and only before `end()`. */
  lemma ContentEventKeepsInv(setup: Setup, st: StreamState, obj: Json)
    requires Inv(st) && !st.crashed && IsContentEvent(obj)
    ensures Inv(OnEvent(setup, st, obj))
  {
    var st' := OnEvent(setup, st, obj);
    if st'.log != st.log {
      var w := Write(ContentFrame(setup, Field(obj, "created_at"), Delta(setup.outputVariable, obj).value));
      var d := Delta(setup.outputVariable, obj).value;
      if st.isFirstChunk && Truthy(d) {
        w := Write(ContentFrame(setup, Field(obj, "created_at"), Str(TrimStart(d.s))));
      }
      assert st'.log == st.log + [w];
      AppendWellTerminated(st.log, [w]);
    }
  }

  lemma FinishOpsWellTerminated(setup: Setup, created: Value, ended: bool)
    ensures var ops := FinishOps(setup, created, ended);
            && WellTerminated(ops) && ops[|ops| - 1] == End
            && (ended ==> forall k :: 0 <= k < |ops| ==> !Guarded(ops[k]))
  {
  }

  lemma ErrorOpsWellTerminated(message: Value, ended: bool)
    ensures var ops := ErrorOps(message, ended);
            && WellTerminated(ops) && ops[|ops| - 1] == End
            && (ended ==> forall k :: 0 <= k < |ops| ==> !Guarded(ops[k]))
  {
    var ops := ErrorOps(message, ended);
    if ended {
      assert ops == [SetStatus(500), Write(ErrorFrame(message)), End];
    } else {
      assert ops == [SetStatus(500), Write(ErrorFrame(message)), Write(DoneSentinel), End];
    }
  }

  /** Appending a well-terminated run of calls that ends in `end()` keeps the invariant. */
  lemma AppendEndingKeepsInv(st: StreamState, ops: seq<ResOp>)
    requires Inv(st) && WellTerminated(ops) && |ops| > 0 && ops[|ops| - 1] == End
    requires st.isResponseEnded ==> forall k :: 0 <= k < |ops| ==> !Guarded(ops[k])
    ensures Inv(st.(log := st.log + ops, isResponseEnded := true))
  {
    AppendWellTerminated(st.log, ops);
    assert (st.log + ops)[|st.log| + |ops| - 1] == End;
  }

  /** A finishing event appends stop, `[DONE]` and `end()`, or only `end()` once ended. */
  lemma FinishEventKeepsInv(setup: Setup, st: StreamState, obj: Json)
    requires Inv(st) && !st.crashed && !IsContentEvent(obj) && IsFinishEvent(obj)
    ensures Inv(OnEvent(setup, st, obj))
  {
    var ops := FinishOps(setup, Field(obj, "created_at"), st.isResponseEnded);
    FinishOpsWellTerminated(setup, Field(obj, "created_at"), st.isResponseEnded);
    AppendEndingKeepsInv(st, ops);
  }

  /** An error event appends status, error frame, `[DONE]` unless ended, and `end()`. */
  lemma ErrorEventKeepsInv(setup: Setup, st: StreamState, obj: Json)
    requires Inv(st) && !st.crashed && !IsContentEvent(obj) && !IsFinishEvent(obj) && EventIs(obj, "error")
    ensures Inv(OnEvent(setup, st, obj))
  {
    var ops := ErrorOps(Field(obj, "message"), st.isResponseEnded);
    ErrorOpsWellTerminated(Field(obj, "message"), st.isResponseEnded);
    AppendEndingKeepsInv(st, ops);
  }

  /** Every event keeps the invariant. */
  lemma OnEventKeepsInv(setup: Setup, st: StreamState, obj: Json)
    requires Inv(st)
    ensures Inv(OnEvent(setup, st, obj))
  {
    if st.crashed {
    } else if IsContentEvent(obj) {
      ContentEventKeepsInv(setup, st, obj);
    } else if IsFinishEvent(obj) {
      FinishEventKeepsInv(setup, st, obj);
    } else if EventIs(obj, "error") {
      ErrorEventKeepsInv(setup, st, obj);
    }
  }

  /** Every run of lines from an invariant state keeps the invariant. */
  lemma {:induction false} OnLinesKeepsInv(setup: Setup, parse: string -> Option<Json>, st: StreamState, lines: seq<string>)
    requires Inv(st)
    ensures Inv(OnLines(setup, parse, st, lines))
    decreases |lines|
  {
    if lines != [] {
      var st' := OnLine(setup, parse, st, lines[0]);
      if StreamingJsonText(lines[0]).Some? && parse(StreamingJsonText(lines[0]).value).Some? {
        OnEventKeepsInv(setup, st, parse(StreamingJsonText(lines[0]).value).value);
      }
      OnLinesKeepsInv(setup, parse, st', lines[1..]);
    }
  }

  /** In a well-terminated log `[DONE]` appears at most once, and so does a stop frame. */
  lemma TerminalFramesAtMostOnce(log: seq<ResOp>)
    requires WellTerminated(log)
    ensures forall i, j :: 0 <= i < |log| && 0 <= j < |log| && log[i] == Write(DoneSentinel) && log[j] == Write(DoneSentinel) ==> i == j
    ensures forall i, j :: 0 <= i < |log| && 0 <= j < |log| && IsStopWrite(log[i]) && IsStopWrite(log[j]) ==> i == j
  {
    forall i, j | 0 <= i < j < |log| && log[i] == Write(DoneSentinel)
      ensures log[j] != Write(DoneSentinel)
    {
      assert log[i + 1] == End;
      if i + 1 < j {
        assert !Guarded(log[j]);
      }
    }
    forall i, j | 0 <= i < j < |log| && IsStopWrite(log[i])
      ensures !IsStopWrite(log[j])
    {
      assert log[i + 1] == Write(DoneSentinel);
      assert log[i + 2] == End;
      if i + 2 < j {
        assert !Guarded(log[j]);
      }
    }
  }

  /**
   * Whatever the backend sends, the streamed response holds at most one stop frame and at most
   * one `[DONE]`, each stop frame is followed at once by `[DONE]`, and no content, stop or
   * `[DONE]` frame follows the first `end()`.
   */
  lemma StreamTerminatesOnce(setup: Setup, parse: string -> Option<Json>, chunks: seq<string>)
    ensures var log := OnChunks(setup, parse, Initial, "", chunks).log;
            && WellTerminated(log)
            && (forall i, j :: 0 <= i < |log| && 0 <= j < |log| && log[i] == Write(DoneSentinel) && log[j] == Write(DoneSentinel) ==> i == j)
            && (forall i, j :: 0 <= i < |log| && 0 <= j < |log| && IsStopWrite(log[i]) && IsStopWrite(log[j]) ==> i == j)
  {
    OnChunksIsChunkingInvariant(setup, parse, Initial, "", chunks);
    OnLinesKeepsInv(setup, parse, Initial, CompleteLines("" + Concat(chunks)));
    TerminalFramesAtMostOnce(OnChunks(setup, parse, Initial, "", chunks).log);
  }

  /**
   * The first non-empty string delta is written with its leading whitespace trimmed, and clears
   * `isFirstChunk` even when trimming leaves nothing to write.
   */
  lemma FirstDeltaTrimmed(setup: Setup, st: StreamState, obj: Json, s: string)
    requires !st.crashed && st.isFirstChunk && !st.isResponseEnded && IsContentEvent(obj)
    requires Delta(setup.outputVariable, obj) == Some(Str(s)) && s != ""
    ensures OnEvent(setup, st, obj)
            == st.(isFirstChunk := false,
                   log := st.log + (if TrimStart(s) != "" then [Write(ContentFrame(setup, Field(obj, "created_at"), Str(TrimStart(s))))] else []))
  {
    var st' := st.(isFirstChunk := false);
    assert OnEvent(setup, st, obj) == Emit(setup, st', obj, Str(TrimStart(s)));
  }

  /** A run of lines only appends to the response, and never reopens it or `isFirstChunk`. */
  lemma {:induction false} OnLinesAppendOnly(setup: Setup, parse: string -> Option<Json>, st: StreamState, lines: seq<string>)
    ensures var r := OnLines(setup, parse, st, lines);
            && st.log <= r.log
            && (st.isResponseEnded ==> r.isResponseEnded)
            && (!st.isFirstChunk ==> !r.isFirstChunk)
    decreases |lines|
  {
    if lines != [] {
      var next := OnLine(setup, parse, st, lines[0]);
      if StreamingJsonText(lines[0]).Some? && parse(StreamingJsonText(lines[0]).value).Some? {
        assert !st.isFirstChunk ==> !next.isFirstChunk;
      }
      OnLinesAppendOnly(setup, parse, next, lines[1..]);
    }
  }

  /** So does a sequence of `data` events. */
  lemma {:induction false} OnChunksAppendOnly(setup: Setup, parse: string -> Option<Json>, st: StreamState, buffer: string, chunks: seq<string>)
    ensures var r := OnChunks(setup, parse, st, buffer, chunks);
            && st.log <= r.log
            && (st.isResponseEnded ==> r.isResponseEnded)
            && (!st.isFirstChunk ==> !r.isFirstChunk)
    decreases |chunks|
  {
    if chunks != [] {
      var all := buffer + chunks[0];
      OnLinesAppendOnly(setup, parse, st, CompleteLines(all));
      OnChunksAppendOnly(setup, parse, OnLines(setup, parse, st, CompleteLines(all)), Remainder(all), chunks[1..]);
    }
  }

  /** After the first truthy delta, deltas are written unchanged; `isFirstChunk` never comes back. */
  lemma LaterDeltasUntrimmed(setup: Setup, st: StreamState, obj: Json)
    requires !st.crashed && !st.isFirstChunk && !st.isResponseEnded && IsContentEvent(obj)
    requires Delta(setup.outputVariable, obj).Some?
    ensures var d := Delta(setup.outputVariable, obj).value;
            var st' := OnEvent(setup, st, obj);
            && !st'.isFirstChunk && !st'.crashed
            && st'.log == st.log + (if Truthy(d) then [Write(ContentFrame(setup, Field(obj, "created_at"), d))] else [])
  {
  }

  /**
   * The first truthy delta clears `isFirstChunk` even when trimming empties it: a blank first
   * delta writes nothing, and the next delta keeps its leading space.
   */
  lemma BlankFirstDeltaClearsFlag(setup: Setup)
    requires setup.endpoint == ChatEndpoint
    ensures var first := map["event" := Str("message"), "answer" := Str("  ")];
            var second := map["event" := Str("message"), "answer" := Str(" x")];
            var st1 := OnEvent(setup, Initial, first);
            var st2 := OnEvent(setup, st1, second);
            && st1 == Initial.(isFirstChunk := false)
            && st2.log == [Write(Chunk("chat.completion.chunk", Undefined, setup.model, DeltaChoice(Some(Str(" x")), None)))]
  {
    var first: Json := map["event" := Str("message"), "answer" := Str("  ")];
    BlankFirst(setup, first);
    var second: Json := map["event" := Str("message"), "answer" := Str(" x")];
    assert Field(second, "event") == Str("message") && Field(second, "answer") == Str(" x");
    assert Field(second, "created_at") == Undefined;
    LaterDeltasUntrimmed(setup, Initial.(isFirstChunk := false), second);
  }

  /** A blank first delta trims to nothing: no frame, but `isFirstChunk` is cleared. */
  lemma BlankFirst(setup: Setup, first: Json)
    requires first == map["event" := Str("message"), "answer" := Str("  ")]
    ensures OnEvent(setup, Initial, first) == Initial.(isFirstChunk := false)
  {
    assert Field(first, "event") == Str("message") && Field(first, "answer") == Str("  ");
    assert IsContentEvent(first);
    assert Delta(setup.outputVariable, first) == Some(Str("  "));
    assert TrimStart("  ") == "" by {
      assert "  "[1..] == " " && " "[1..] == "";
    }
    FirstDeltaTrimmed(setup, Initial, first, "  ");
    assert Initial.log + [] == Initial.log;
  }

  /** A chat answer `Hello` then `message_end`: one content frame, one stop frame, `[DONE]`, `end()`. */
  lemma HelloThenEnd(setup: Setup)
    requires setup.endpoint == ChatEndpoint
    ensures var hello := map["event" := Str("message"), "answer" := Str("Hello")];
            var end := map["event" := Str("message_end")];
            OnEvent(setup, OnEvent(setup, Initial, hello), end).log
            == [ Write(Chunk("chat.completion.chunk", Undefined, setup.model, DeltaChoice(Some(Str("Hello")), None))),
                 Write(Chunk("chat.completion.chunk", Undefined, setup.model, DeltaChoice(None, Some("stop")))),
                 Write(DoneSentinel),
                 End ]
  {
    var hello: Json := map["event" := Str("message"), "answer" := Str("Hello")];
    HelloFirst(setup, hello);
    var st := OnEvent(setup, Initial, hello);
    MessageEndFinishes(setup, st);
  }

  /** The first `message` event with answer `Hello` writes that content frame. */
  lemma HelloFirst(setup: Setup, hello: Json)
    requires setup.endpoint == ChatEndpoint
    requires hello == map["event" := Str("message"), "answer" := Str("Hello")]
    ensures OnEvent(setup, Initial, hello)
            == StreamState(false, false, false,
                           [Write(Chunk("chat.completion.chunk", Undefined, setup.model, DeltaChoice(Some(Str("Hello")), None)))])
  {
    assert Field(hello, "event") == Str("message");
    assert Field(hello, "answer") == Str("Hello");
    assert Field(hello, "created_at") == Undefined;
    assert IsContentEvent(hello);
    assert Delta(setup.outputVariable, hello) == Some(Str("Hello"));
    assert TrimStart("Hello") == "Hello";
  }

  /** `message_end` on a live stream appends the stop frame, `[DONE]` and `end()`. */
  lemma MessageEndFinishes(setup: Setup, st: StreamState)
    requires !st.crashed && !st.isResponseEnded
    ensures var end := map["event" := Str("message_end")];
            OnEvent(setup, st, end)
            == st.(log := st.log + [Write(StopFrame(setup, Undefined)), Write(DoneSentinel), End],
                   isResponseEnded := true)
  {
    var end: Json := map["event" := Str("message_end")];
    assert Field(end, "event") == Str("message_end");
    assert Field(end, "created_at") == Undefined;
    assert !IsContentEvent(end) && IsFinishEvent(end);
  }

  /**
   * The error frame is not guarded: an `error` event after `message_end` writes its frame
   * after `[DONE]` and `end()` (only the second `[DONE]` is suppressed).
   */
  lemma ErrorFrameAfterDone(setup: Setup)
    requires setup.endpoint == TextEndpoint
    ensures var end := map["event" := Str("message_end")];
            var err := map["event" := Str("error"), "message" := Str("bad input")];
            OnEvent(setup, OnEvent(setup, Initial, end), err).log
            == [ Write(Chunk("text_completion.chunk", Undefined, setup.model, TextChoice(Str(""), Some("stop")))),
                 Write(DoneSentinel),
                 End,
                 SetStatus(500),
                 Write(ErrorFrame(Str("bad input"))),
                 End ]
  {
    MessageEndFinishes(setup, Initial);
    var st1 := OnEvent(setup, Initial, map["event" := Str("message_end")]);
    var err: Json := map["event" := Str("error"), "message" := Str("bad input")];
    assert Field(err, "event") == Str("error") && Field(err, "message") == Str("bad input");
    assert !IsContentEvent(err) && !IsFinishEvent(err);
    assert OnEvent(setup, st1, err).log == st1.log + ErrorOps(Str("bad input"), true);
  }
}

=== FILE: text.dfy ===
/**
 * The string operations of JavaScript that the route handlers use, on `seq<char>`:
 * `trim`, `trimStart`, `startsWith`, `endsWith`, `split` on a one-character separator and
 * `Array.prototype.join`.
 */
module Text {
  import opened Wrappers

  /** The characters `String.prototype.trim` removes: ECMAScript WhiteSpace and LineTerminator. */
  predicate IsWhitespace(c: char) {
    || c == '\t' || c == '\n' || c == '\U{000B}' || c == '\U{000C}' || c == '\r' || c == ' '
    || c == '\U{00A0}' || c == '\U{1680}' || ('\U{2000}' <= c <= '\U{200A}')
    || c == '\U{2028}' || c == '\U{2029}' || c == '\U{202F}' || c == '\U{205F}'
    || c == '\U{3000}' || c == '\U{FEFF}'
  }

  predicate StartsWith(s: string, prefix: string) {
    |prefix| <= |s| && s[..|prefix|] == prefix
  }

  predicate EndsWith(s: string, suffix: string) {
    |suffix| <= |s| && s[|s| - |suffix|..] == suffix
  }

  /** `s.trimStart()`: the suffix of `s` left after dropping its leading whitespace. */
  function TrimStart(s: string): (r: string)
    ensures |r| <= |s| && r == s[|s| - |r|..]
    ensures r == [] || !IsWhitespace(r[0])
    ensures forall k :: 0 <= k < |s| - |r| ==> IsWhitespace(s[k])
  {
    if |s| > 0 && IsWhitespace(s[0]) then TrimStart(s[1..]) else s
  }

  /** The prefix of `s` left after dropping its trailing whitespace. */
  function TrimEnd(s: string): (r: string)
    ensures |r| <= |s| && r == s[..|r|]
    ensures r == [] || !IsWhitespace(r[|r| - 1])
    ensures forall k :: |r| <= k < |s| ==> IsWhitespace(s[k])
  {
    if |s| > 0 && IsWhitespace(s[|s| - 1]) then TrimEnd(s[..|s| - 1]) else s
  }

  /** `s.trim()`: a slice `s[i..j]` with whitespace only outside it and none at its ends. */
  function Trim(s: string): (r: string)
    ensures exists i, j :: 0 <= i <= j <= |s| && r == s[i..j]
                           && (forall k :: 0 <= k < i ==> IsWhitespace(s[k]))
                           && (forall k :: j <= k < |s| ==> IsWhitespace(s[k]))
    ensures r == [] || (!IsWhitespace(r[0]) && !IsWhitespace(r[|r| - 1]))
  {
    var t := TrimStart(s);
    var r := TrimEnd(t);
    TrimBounds(s, t, r);
    r
  }

  /** Where the trimmed slice lies: after the leading whitespace, before the trailing whitespace. */
  lemma TrimBounds(s: string, t: string, r: string)
    requires |t| <= |s| && t == s[|s| - |t|..]
    requires forall k :: 0 <= k < |s| - |t| ==> IsWhitespace(s[k])
    requires |r| <= |t| && r == t[..|r|]
    requires forall k :: |r| <= k < |t| ==> IsWhitespace(t[k])
    ensures var i, j := |s| - |t|, |s| - |t| + |r|;
            && 0 <= i <= j <= |s| && r == s[i..j]
            && (forall k :: 0 <= k < i ==> IsWhitespace(s[k]))
            && (forall k :: j <= k < |s| ==> IsWhitespace(s[k]))
  {
    var i := |s| - |t|;
    forall k | |s| - |t| + |r| <= k < |s|
      ensures IsWhitespace(s[k])
    {
      assert s[k] == t[k - i];
    }
  }

  /** Trimming drops any run of whitespace around a string whose ends are not whitespace. */
  lemma TrimPadded(pre: string, s: string, post: string)
    requires forall k :: 0 <= k < |pre| ==> IsWhitespace(pre[k])
    requires forall k :: 0 <= k < |post| ==> IsWhitespace(post[k])
    requires s != [] && !IsWhitespace(s[0]) && !IsWhitespace(s[|s| - 1])
    ensures Trim(pre + s + post) == s
  {
    assert pre + s + post == pre + (s + post);
    assert (s + post)[0] == s[0];
    TrimStartPadded(pre, s + post);
    TrimEndPadded(s, post);
  }

  /** `trimStart` drops a whitespace prefix in front of a string that does not start with whitespace. */
  lemma {:induction false} TrimStartPadded(pre: string, x: string)
    requires forall k :: 0 <= k < |pre| ==> IsWhitespace(pre[k])
    requires x == [] || !IsWhitespace(x[0])
    ensures TrimStart(pre + x) == x
    decreases |pre|
  {
    if pre == [] {
      assert pre + x == x;
    } else {
      assert (pre + x)[0] == pre[0] && (pre + x)[1..] == pre[1..] + x;
      TrimStartPadded(pre[1..], x);
    }
  }

  /** Trailing whitespace after a string that does not end in whitespace is dropped by `TrimEnd`. */
  lemma {:induction false} TrimEndPadded(x: string, post: string)
    requires forall k :: 0 <= k < |post| ==> IsWhitespace(post[k])
    requires x == [] || !IsWhitespace(x[|x| - 1])
    ensures TrimEnd(x + post) == x
    decreases |post|
  {
    if post == [] {
      assert x + post == x;
    } else {
      var shorter := post[..|post| - 1];
      assert (x + post)[|x + post| - 1] == post[|post| - 1];
      assert (x + post)[..|x + post| - 1] == x + shorter;
      TrimEndPadded(x, shorter);
    }
  }

  /** Trimming leaves a string alone when neither of its ends is whitespace. */
  lemma TrimUnchanged(s: string)
    requires s != [] && !IsWhitespace(s[0]) && !IsWhitespace(s[|s| - 1])
    ensures Trim(s) == s
  {
    TrimPadded("", s, "");
    assert "" + s + "" == s;
  }

  /** Concatenation is associative (stated once, so that proofs need not rediscover it). */
  lemma AppendAssoc<T>(a: seq<T>, b: seq<T>, c: seq<T>)
    ensures a + (b + c) == (a + b) + c
  {
  }

  /**
   * `s.split(sep)` for a one-character separator: the maximal separator-free pieces of `s`,
   * in order; the empty string gives `[""]` and a string ending in `sep` ends with `""`.
   */
  function Split(s: string, sep: char): (pieces: seq<string>)
    ensures |pieces| >= 1
  {
    if |s| == 0 then [""]
    else
      var rest := Split(s[1..], sep);
      if s[0] == sep then [""] + rest else [[s[0]] + rest[0]] + rest[1..]
  }

  /** No piece of a split contains the separator. */
  lemma {:induction false} SplitPiecesFree(s: string, sep: char)
    ensures forall k :: 0 <= k < |Split(s, sep)| ==> sep !in Split(s, sep)[k]
  {
    if |s| > 0 {
      SplitPiecesFree(s[1..], sep);
      var rest := Split(s[1..], sep);
      var pieces := Split(s, sep);
      if s[0] == sep {
        assert pieces == [""] + rest;
        forall k | 0 < k < |pieces|
          ensures sep !in pieces[k]
        {
          assert pieces[k] == rest[k - 1];
        }
      } else {
        assert pieces == [[s[0]] + rest[0]] + rest[1..];
        assert sep !in [s[0]] + rest[0] by {
          forall i | 0 <= i < |[s[0]] + rest[0]|
            ensures ([s[0]] + rest[0])[i] != sep
          {
            if i > 0 {
              assert ([s[0]] + rest[0])[i] == rest[0][i - 1];
            }
          }
        }
        forall k | 0 < k < |pieces|
          ensures sep !in pieces[k]
        {
          assert pieces[k] == rest[k];
        }
      }
    }
  }

  /** `s.split(sep)[1]`, `None` standing for `undefined`. */
  function SecondPiece(s: string, sep: char): (r: Option<string>)
    ensures r.Some? ==> sep !in r.value
  {
    var pieces := Split(s, sep);
    SplitPiecesFree(s, sep);
    if |pieces| > 1 then Some(pieces[1]) else None
  }

  /** `pieces.join(sep)`. */
  function Join(pieces: seq<string>, sep: string): string {
    if |pieces| == 0 then ""
    else if |pieces| == 1 then pieces[0]
    else pieces[0] + sep + Join(pieces[1..], sep)
  }

  /** Joining the pieces of a split with the separator gives back the string. */
  lemma {:induction false} JoinSplit(s: string, sep: char)
    ensures Join(Split(s, sep), [sep]) == s
  {
    if |s| > 0 {
      var rest := Split(s[1..], sep);
      JoinSplit(s[1..], sep);
      if s[0] == sep {
        assert Split(s, sep) == [""] + rest;
        assert ([""] + rest)[1..] == rest;
      } else {
        var pieces := Split(s, sep);
        assert pieces[0] == [s[0]] + rest[0];
        if |rest| > 1 {
          assert pieces[1..] == rest[1..];
        }
      }
    }
  }

  /** Splitting a join of separator-free pieces gives back the pieces. */
  lemma {:induction false} SplitJoin(pieces: seq<string>, sep: char)
    requires |pieces| >= 1
    requires forall k :: 0 <= k < |pieces| ==> sep !in pieces[k]
    ensures Split(Join(pieces, [sep]), sep) == pieces
  {
    if |pieces| == 1 {
      SplitFree(pieces[0], sep);
    } else {
      SplitJoin(pieces[1..], sep);
      var tail := Join(pieces[1..], [sep]);
      SplitPrefixed(pieces[0], sep, tail);
      assert [pieces[0]] + pieces[1..] == pieces;
    }
  }

  /** A string without the separator splits into itself alone. */
  lemma {:induction false} SplitFree(s: string, sep: char)
    requires sep !in s
    ensures Split(s, sep) == [s]
  {
    if |s| > 0 {
      SplitFree(s[1..], sep);
      assert [s[0]] + s[1..] == s;
    }
  }

  /** A separator-free head followed by the separator becomes the first piece. */
  lemma {:induction false} SplitPrefixed(head: string, sep: char, tail: string)
    requires sep !in head
    ensures Split(head + [sep] + tail, sep) == [head] + Split(tail, sep)
  {
    if |head| == 0 {
      assert head + [sep] + tail == [sep] + tail;
      assert ([sep] + tail)[1..] == tail;
    } else {
      var w := head + [sep] + tail;
      assert w[1..] == head[1..] + [sep] + tail;
      SplitPrefixed(head[1..], sep, tail);
      assert [head[0]] + head[1..] == head;
    }
  }

  /** The first piece is empty exactly when the string is empty or starts with the separator. */
  lemma FirstPieceEmpty(s: string, sep: char)
    ensures Split(s, sep)[0] == "" <==> (s == "" || s[0] == sep)
  {
  }

  /** The index of the first occurrence of `c` in `s` (`s.indexOf(c)` where it is found). */
  function IndexOf(s: string, c: char): (i: nat)
    requires c in s
    ensures i < |s| && s[i] == c
    ensures forall k :: 0 <= k < i ==> s[k] != c
  {
    if s[0] == c then 0 else assert c in s[1..]; 1 + IndexOf(s[1..], c)
  }

  /**
   * Where `s` has an occurrence of `sep` at `i` and none before it, the first piece is `s[..i]`
   * and the remaining pieces are those of `s[i + 1..]`.
   */
  lemma {:induction false} SplitAtFirst(s: string, sep: char, i: nat)
    requires i < |s| && s[i] == sep
    requires forall k :: 0 <= k < i ==> s[k] != sep
    ensures Split(s, sep) == [s[..i]] + Split(s[i + 1..], sep)
  {
    assert s == s[..i] + [sep] + s[i + 1..];
    SplitPrefixed(s[..i], sep, s[i + 1..]);
  }
}

=== FILE: translator.dfy ===
/**
 * What the two endpoints' translators share: which endpoint's shapes they produce, and the
 * delta a streaming content event carries.
 */
module Translator {
  import opened Wrappers
  import opened JsValue

  /** `/v1/chat/completions` (chat shapes) or `/v1/completions` (legacy text shapes). */
  datatype Endpoint = ChatEndpoint | TextEndpoint

  /** `message`, `agent_message` or `text_chunk`: the events that carry a content delta. */
  predicate IsContentEvent(obj: Json) {
    EventIs(obj, "message") || EventIs(obj, "agent_message") || EventIs(obj, "text_chunk")
  }

  /** `workflow_finished` or `message_end`: the events that end a streamed response. */
  predicate IsFinishEvent(obj: Json) {
    EventIs(obj, "workflow_finished") || EventIs(obj, "message_end")
  }

  /**
   * The delta of a content event: `data.text` of a `text_chunk`; `answer[outputVariable]` when
   * an output variable is set and `answer` is a truthy object; `answer` otherwise. `None` is the
   * TypeError of reading `data.text` when `data` is `undefined` or `null`.
   */
  function Delta(outputVariable: string, obj: Json): (r: Option<Value>)
    ensures r.None? <==> EventIs(obj, "text_chunk") && Nullish(Field(obj, "data"))
    ensures !EventIs(obj, "text_chunk") && (outputVariable == "" || !Field(obj, "answer").Obj?)
            ==> r == Some(Field(obj, "answer"))
    ensures EventIs(obj, "text_chunk") && !Nullish(Field(obj, "data"))
            ==> r == Some(OptionalProp(Field(obj, "data"), "text"))
    ensures !EventIs(obj, "text_chunk") && outputVariable != "" && Field(obj, "answer").Obj?
            ==> r == Some(OptionalProp(Field(obj, "answer"), outputVariable))
  {
    if EventIs(obj, "text_chunk") then Prop(Field(obj, "data"), "text")
    else
      var answer := Field(obj, "answer");
      if outputVariable != "" && Truthy(answer) && answer.Obj? then Prop(answer, outputVariable)
      else Some(answer)
  }
}

=== FILE: wrappers.dfy ===
/** Option and Result, the two wrappers the model uses for absent values and error paths. */
module Wrappers {

  datatype Option<+T> = None | Some(value: T)

  datatype Result<+T, +E> = Ok(value: T) | Err(error: E)
}
